=== FILE: README.md ===
# dorosupi play screen: controller messages, pairing and the race

In dorosupi's play screen a drawing is paired with an M5Stick controller
and shown on a shared stage, or raced against a second drawing. This project
models the logic behind the play screen in Dafny and proves properties of
that model:

- **Controller messages** (`Controller`). A message is normalised into a
  payload record. The player id is the last `/` segment of the topic. When
  the text parses as a JSON object, the fields are picked with their
  fallbacks: `dx`/`x`, `dy`/`y`, `button`/`key`, `step`, `event`, `id`.
  Otherwise, if the text is not JSON or is `null`, it becomes the
  trimmed, lower-cased button word; any other JSON value gives a payload
  with no fields. Two
  more pieces of the same hook are modelled:
  - the multiplayer rewrite of a trailing `/player<digits>` to the `/+`
    wildcard;
  - the broker URL, whose `ws://` becomes `wss://` on an https page.
- **Pairing** (`Play`). A controller's `connect` message carries its MAC
  address. Received while a drawing is selected, it pairs that controller
  with the drawing:
  - a known controller keeps its slot and only changes drawing;
  - a new controller takes player 1 if nobody holds it, otherwise player 2,
    after every other pairing of the same drawing is removed.

  Also modelled:
  - the selection of drawings;
  - the views derived from the registry: each player's drawing and the
    stage map keyed by drawing;
  - the keyboard substitutes for the controller;
  - the unused MAC-to-player helper.
- **Race** (`Race`):
  - a three-tick countdown;
  - edge-triggered key presses on "1" and "2": each moves a runner two
    steps, capped at 100, and makes it wobble once;
  - the first runner to reach 100 wins, after which input stops;
  - a "play again" reset.

Supporting modules:

- `Wrappers` holds `Option`.
- `Text` holds the JavaScript string operations used: `split("/").pop()`,
  `trim()` over ECMAScript whitespace, and ASCII case mapping.
- `Hex` holds `parseInt(s, 16)`. NaN is `None`.
- `Seqs` holds first-index search (`Array.prototype.find`).
- `OrderedMap` models a JavaScript `Map` as a sequence of pairs with unique
  keys, in insertion order.

Every handler is a pure function from state to state, and event sequences
are folds of them (`Play.RunEvents`, `Race.Run`). React's batching is not
modelled: each event is processed completely before the next.

Rules of the code worth knowing:

- slots are first come, first served, and a third controller is not
  refused but also becomes player 2;
- a known controller that reconnects with another pairing's drawing evicts
  nothing, so two pairings can then share a drawing;
- whether player 1 is taken is decided before the eviction;
- the MAC helper splits players at the threshold 0x80 on the last byte.

## Model

| member | source | states |
|---|---|---|
| Controller.Normalize | src/features/play/hooks/useMqttController.ts:35-87 | the raw text is kept; the player id is the last `/` segment of the topic; a failed parse gives only the trimmed lower-cased button; a non-object gives no fields; each field comes from its numeric/string key with the documented fallback; the event only for exactly "connect"/"run"; a button is never upper-case |
| Controller.FailedParseFields | src/features/play/hooks/useMqttController.ts:83-86 | text that is no JSON becomes exactly the raw text, the topic's last segment and the trimmed lower-cased word, with every other field absent |
| Controller.ButtonMessageExample | src/features/play/hooks/useMqttController.ts:42-82 | `{"button":"RIGHT"}` on `.../player2` gives button "right", player "player2", no event and no id |
| Controller.BareWordPayload | src/features/play/hooks/useMqttController.ts:83-86 | unparsable text with no padding and no capitals arrives as itself: the button token is the text unchanged |
| Controller.UnparsedButtonExample | src/features/play/hooks/useMqttController.ts:83-86 | the unparsable text `" RIGHT\n"` becomes the button "right" |
| Controller.SubscriptionTopic | src/features/play/hooks/useMqttController.ts:131-133 | in multiplayer mode a topic ending in `/player<digits>` becomes its prefix plus `/+`; any other topic, and every topic outside multiplayer mode, is unchanged |
| Controller.SubscriptionTopicIdempotent | src/features/play/hooks/useMqttController.ts:131-133 | rewriting an already rewritten topic changes nothing |
| Controller.PlayerTopicsBecomeWildcard | src/features/play/hooks/useMqttController.ts:131-133 | `.../player1` becomes `.../+` in multiplayer mode; the wildcard topic the play screen passes stays as it is |
| Controller.BrokerUrl | src/features/play/hooks/useMqttController.ts:16-25 | empty exactly when no URL is configured; unchanged off https; on https a leading `ws://` becomes `wss://` and the result never starts with `ws://` |
| Controller.BrokerUrlIdempotent | src/features/play/hooks/useMqttController.ts:16-25 | applying the upgrade to its own result changes nothing |
| Text.Trim | src/features/play/hooks/useMqttController.ts:84 | the result is a contiguous slice of the input with only whitespace cut on either side and no whitespace left at either end |
| Text.TrimPadded | src/features/play/hooks/useMqttController.ts:84 | trimming whitespace padding around a word with no whitespace at its ends gives back the word |
| Text.LastSegment | src/features/play/hooks/useMqttController.ts:42 | the result is a suffix without the separator, preceded by the separator unless it is the whole string |
| Text.LastSegmentAfterSeparator | src/features/play/hooks/useMqttController.ts:42 | whatever precedes the last separator, the segment after it is returned |
| Text.ToLower | src/features/play/hooks/useMqttController.ts:78 | same length, each character mapped, no upper-case ASCII letter remains |
| Text.ToUpper | src/features/play/PlayFeature.tsx:28-30 | same length, each character mapped, no lower-case ASCII letter remains |
| Text.UpperKeepsNonLetters | src/features/play/PlayFeature.tsx:72-73 | upper-casing keeps every non-letter, so the `:` test gives the same answer before and after |
| Hex.ParseDigits | src/features/play/PlayFeature.tsx:38 | a non-empty string of hex digits parses to the number it denotes |
| Hex.ParseNonDigitIsNaN | src/features/play/PlayFeature.tsx:38 | a string starting with something that is no digit, sign or whitespace is NaN |
| Hex.ParseInt16Reads | src/features/play/PlayFeature.tsx:38 | leading whitespace, an optional `-`/`+`, an optional `0x`/`0X` and a run of hex digits followed by anything that does not continue the run (`"7Z"` reads as 7) parse to the run's value, negated after `-` |
| Hex.ParseInt16NaN | src/features/play/PlayFeature.tsx:38 | whitespace, an optional sign and an optional `0x`/`0X` with no hex digit after them (`"-Z"`, `" Z"`, `"0XZ"`, blank text) parse to NaN |
| Hex.NaNPieces | src/features/play/PlayFeature.tsx:38 | conversely, every text that parses to NaN splits into exactly such whitespace, sign, prefix and non-digit rest |
| Hex.TwoDigitsBelowHalf | src/features/play/PlayFeature.tsx:38-40 | a two-digit group is below 0x80 exactly when its first digit is below 8 |
| Hex.ValueIgnoresCase | src/features/play/PlayFeature.tsx:37-38 | upper-casing hex digits keeps them hex digits with the same value |
| Seqs.FirstIndex | src/features/play/PlayFeature.tsx:233 | the first index whose element satisfies the predicate, or -1 exactly when none does |
| OrderedMap.Get | src/features/play/PlayFeature.tsx:94 | a value exactly when the key is present, and then the value stored with it |
| OrderedMap.Set | src/features/play/PlayFeature.tsx:97-100 | the key maps to the new value, other keys keep theirs; a present key keeps its position, a new key is appended; keys stay unique |
| OrderedMap.Filter | src/features/play/PlayFeature.tsx:109-113 | exactly the entries whose value is kept remain, keys stay unique, and the map does not grow |
| OrderedMap.FilterAppend | src/features/play/PlayFeature.tsx:109-113 | filtering two maps joined end to end is filtering each and joining the results, so deleting while iterating works piece by piece |
| OrderedMap.FilterKeepsOrder | src/features/play/PlayFeature.tsx:109-113 | when two entries are both kept, the earlier one stays earlier: deleting entries never reorders the rest |
| OrderedMap.GetFilter | src/features/play/PlayFeature.tsx:109-113 | after filtering, a key's lookup is its old value if kept and absent otherwise |
| Play.ResolvePlayerIdFromMac | src/features/play/PlayFeature.tsx:25-41 | a configured player-1 address wins, then a configured player-2 address; otherwise player 1 exactly when the last group parses as hexadecimal below 0x80 |
| Play.LastByteDecidesSlot | src/features/play/PlayFeature.tsx:35-40 | for an address ending in a hex group, player 1 exactly when that group's value is below 0x80, whatever its case |
| Play.NaNLastByteIsPlayer2 | src/features/play/PlayFeature.tsx:37-40 | with no configured match, a last group of any NaN shape (whitespace, optional sign and `0X`, then no hex digit; `Hex.NaNPieces` shows these are all NaN texts) gives player 2 |
| Play.EmptyLastByteIsPlayer1 | src/features/play/PlayFeature.tsx:37 | an address whose last `:` group is empty (the empty address or one ending in `:`) falls back to "00" and gives player 1 |
| Play.ResolveMacAddress | src/features/play/PlayFeature.tsx:70-76 | an address exactly when the id contains `:`, and then the upper-cased id |
| Play.MacKeyIgnoresCase | src/features/play/PlayFeature.tsx:70-76 | ids that differ only in letter case resolve to the same key |
| Play.DropDrawingKeepsAtMostOne | src/features/play/PlayFeature.tsx:108-113 | removing the pairings of a drawing cannot create a second holder of a slot |
| Play.Connect | src/features/play/PlayFeature.tsx:90-121 | the address ends up paired with the drawing; a known address keeps its slot and is updated in place, every other entry staying as and where it was; a new one gets player 1 exactly when nobody holds it, becomes the drawing's only holder, and is appended after the surviving pairings, which keep their order, other addresses losing only pairings of that drawing; player 1 is never held twice |
| Play.NewControllerFacts | src/features/play/PlayFeature.tsx:102-118 | a new controller's registry is the survivors of the eviction followed by the new pairing, which is the drawing's sole holder; other addresses keep their pairing unless it held that drawing; player 1 stays unshared |
| Play.ConnectIdempotent | src/features/play/PlayFeature.tsx:94-100 | resending the same connect with the same drawing changes nothing |
| Play.RebindingDrawingEvicts | src/features/play/PlayFeature.tsx:108-118 | a new controller taking a paired drawing removes the old pairing |
| Play.ThirdControllerAlsoPlayer2 | src/features/play/PlayFeature.tsx:102-118 | a third controller is not refused and becomes a second player 2 |
| Play.ReconnectCanShareDrawing | src/features/play/PlayFeature.tsx:95-100 | a known controller reconnecting with another pairing's drawing evicts nothing |
| Play.EvictedPlayer1NotReassigned | src/features/play/PlayFeature.tsx:103-113 | a new controller taking player 1's drawing becomes player 2 and leaves player 1 unheld |
| Play.HandlePayload | src/features/play/PlayFeature.tsx:78-131 | the state changes exactly for a connect with a selected drawing and a MAC id; then the registry is updated by `Connect`, the drawing is put at the origin and the selection is cleared; the drawings list never changes |
| Play.FirstConnectTakesPlayer1 | src/features/play/PlayFeature.tsx:81-127 | the first controller to connect takes player 1 with the selected drawing, at the origin, and the selection is cleared |
| Play.ConnectMessageNormalised | src/features/play/hooks/useMqttController.ts:65-71 | a connect message's event and id survive normalisation |
| Play.HandleSelect | src/features/play/PlayFeature.tsx:197-206 | the item becomes selected; a different previously selected drawing is put at the front exactly when no drawing with its id is listed; nothing listed is lost; pairings and positions are unchanged |
| Play.SelectIdempotent | src/features/play/PlayFeature.tsx:197-206 | clicking the selected drawing again changes nothing |
| Play.SelectSwitchKeepsPrevious | src/features/play/PlayFeature.tsx:197-210 | selecting a, then b, then releasing leaves nothing selected, a listed, and pairings and positions untouched |
| Play.Player1NeverShared | src/features/play/PlayFeature.tsx:78-131 | over any sequence of selections, releases and messages, no two controllers hold player 1 |
| Play.OnlyConnectsPair | src/features/play/PlayFeature.tsx:81 | events without a connect message never change the pairings |
| Play.PlayerDrawing | src/features/play/PlayFeature.tsx:229-246 | the first listed drawing whose id is that of the first pairing holding the slot; nothing when the slot is free or that drawing is not listed |
| Play.PlayerDrawingByFirstHolder | src/features/play/PlayFeature.tsx:229-246 | two registries whose first holders of a slot hold the same drawing id show the same drawing for that slot |
| Play.DropDrawingKeepsFirstHolder | src/features/play/PlayFeature.tsx:108-113 | removing a drawing's pairings keeps a slot's first holder first, unless it held that drawing |
| Play.NewControllerKeepsPlayerDrawing | src/features/play/PlayFeature.tsx:102-118 | pairing a new controller does not change the drawing shown for a slot whose first holder is not evicted |
| Play.StagePairings | src/features/play/PlayFeature.tsx:217-227 | one entry per paired drawing, with its stored position or the origin, and the slot of the last pairing that references it |
| Play.DebugKeyPayload | src/features/play/PlayFeature.tsx:145-175 | exactly the keys "1", "2" and the four arrows have a substitute; none carries an id or movement; "1"/"2" connect as player1/player2 without a button; an arrow is player1 pressing `up`, `down`, `left` or `right`, with the raw text equal to the button |
| Play.DebugKeysNeverPair | src/features/play/PlayFeature.tsx:145-184 | the keyboard's connect and arrow substitutes never change the state: the connects carry no id |
| Play.ArrowKeyMatchesNormalised | src/features/play/PlayFeature.tsx:168-173 | each arrow-key substitute equals what the normaliser makes of its bare word (`up`, `down`, `left`, `right`) on every topic whose last segment is `player1`; `Play.PlayerOneTopicSegment` shows `yokohama/hackathon/running/player1` is one |
| Race.Initial | src/features/play/components/RaceGame.tsx:27-39 | the first state is a valid state in the ready phase with no winner |
| Race.PlayerOfKey | src/features/play/components/RaceGame.tsx:66-98 | "1" drives player 1, "2" drives player 2, no other key drives anyone |
| Race.OnTick | src/features/play/components/RaceGame.tsx:42-57 | ticks count only in the ready phase; the tick finding one or less left starts the race with countdown 0; runners and winner untouched |
| Race.Impulse | src/features/play/components/RaceGame.tsx:69-78 | the runner moves two steps capped at 100 and wobbles once; the other runner is untouched; with no winner yet, the runner is on the line exactly when it becomes the winner and the phase becomes finish; short of the line, or with a winner already named, phase and winner stay |
| Race.Press | src/features/play/components/RaceGame.tsx:67-81 | a held key does nothing; a key still marked as the last one only becomes held; a fresh press moves the runner as `Impulse` does, including the win and the finish phase on reaching the line; the other runner never changes and the key ends up held |
| Race.OnKeyDown | src/features/play/components/RaceGame.tsx:60-99 | ignored outside the race, after a win, for other keys and for held keys; a marked key only becomes held; a fresh press moves only its own runner two steps capped at 100, one wobble more, and reaching 100 makes it the winner and finishes the race while a press short of it keeps phase and winner; runners never move back |
| Race.OnKeyUp | src/features/play/components/RaceGame.tsx:101-111 | during the race, releasing a runner's key clears its held flag and last-key marker and changes nothing else; ignored otherwise |
| Race.OnPlayAgain | src/features/play/components/RaceGame.tsx:122-132 | after a finished race, runners, wobbles, winner, countdown, key state and phase are back to the start; the button does not exist in other phases |
| Race.StepPreservesInv | src/features/play/components/RaceGame.tsx:27-132 | every event keeps positions in [0, 100] at two steps per wobble, a winner exactly in the finish phase and on the line, the loser short of it, and idle runners during the countdown |
| Race.RunPreservesInv | src/features/play/components/RaceGame.tsx:27-132 | any event sequence keeps that invariant |
| Race.ReachableStatesAreValid | src/features/play/components/RaceGame.tsx:27-132 | every state reachable from the first one satisfies the invariant |
| Race.WinnerPressedFiftyTimes | src/features/play/components/RaceGame.tsx:11-12 | the winner wobbled exactly 100/2 times, the loser fewer |
| Race.TicksStartRace | src/features/play/components/RaceGame.tsx:42-57 | from the ready phase, n ticks start the race exactly when n reaches the countdown, leaving the rest otherwise |
| Race.RacingIgnoresTicks | src/features/play/components/RaceGame.tsx:43 | outside the ready phase ticks change nothing |
| Race.ThreeTicksToRace | src/features/play/components/RaceGame.tsx:33-57 | from the start, two ticks still count down and the third starts the race |
| Race.RepeatedKeyDownIdempotent | src/features/play/components/RaceGame.tsx:67-80 | a key-repeat without a release changes nothing |
| Race.KeyUpRearms | src/features/play/components/RaceGame.tsx:101-111 | after a release the next press of that key moves its runner two steps again |
| Race.StrideAdvances | src/features/play/components/RaceGame.tsx:66-111 | a press and release short of the line moves the runner two steps and leaves its key released |
| Race.StridesAdvance | src/features/play/components/RaceGame.tsx:66-111 | n strides short of the line move the runner 2n steps, the other runner untouched |
| Race.StridesFinish | src/features/play/components/RaceGame.tsx:70-74 | a runner n strides from the line wins with the n-th stride |
| Race.FiftyStridesWin | src/features/play/components/RaceGame.tsx:11-74 | three ticks and fifty strides of "1" win the race for player 1 |
| Race.FirstToTheLineWins | src/features/play/components/RaceGame.tsx:61-91 | neck and neck at 98, the first press wins and the other runner's following press is ignored |
| Race.RunMonotone | src/features/play/components/RaceGame.tsx:61-91 | until "play again", runners never move back, and a finished race does not change |

## Left out

- The MQTT client lifecycle (connect, subscribe, message, error and close handlers) and the random client id: network I/O and randomness. The broker URL's environment variable and the page protocol are parameters of `Controller.BrokerUrl`.
- Controller.Normalize: `JSON.parse` is not modelled. Its outcome is a parameter (an object's fields, some other value, or a failure, with `null` counted as a failure, as the code's property access throws on it). UTF-8 decoding of the message buffer is also left out.
- Text.ToLower: maps only ASCII letters. JavaScript's full Unicode case mapping is left out.
- Text.ToUpper: maps only ASCII letters, for the same reason.
- Hex.ParseInt16 keeps the exact integer. The source gets a double, which differs only far above the 0x80 threshold.
- React batching, stale closures and effect scheduling: each event is applied completely before the next.
- Race.OnKeyDown models the source's `!winner` test inside the position updater as the state's winner. The listener is only mounted while there is no winner, so the test always passes there.
- Rendering is left out: the race track canvas and its trigonometric wobble, the draw page, the drawings fetch, the header status text, and the presentational components (game selection, drawing grid, selected stage).
- `pairedDrawingIds` is computed by the play screen but never used.
- The selected stage reads a `controllerId` field from each stage entry and shows `controllerId.slice(-5)` (src/features/play/components/SelectedStage.tsx:46, 109). The entries `stagePairings` builds carry `playerId` and no `controllerId` (src/features/play/PlayFeature.tsx:219-224), so the field is `undefined` and rendering a paired drawing that is listed would throw a `TypeError`. Rendering is not modelled, so the model neither reproduces nor repairs this; `Play.StagePairings` states the entries as the code builds them.
- Going back from a game leaves the pairings as they are. The model has no back-out event because nothing it holds changes then.
- Controller-driven race movement is not modelled, because the code does not implement it: the race ignores its payload callback and only the "1" and "2" keys move the runners.
- Play.StagePairings: the model states the entries as a map and not the insertion order of the JavaScript `Map`. Only the display iterates over it.
- Stored positions are only ever reset to the origin; the code has no move handler, so the model has none.
- The race screen's "not ready" placeholder, shown while a player's drawing is missing, is left out. The game is only entered when both drawings exist.

=== FILE: controller.dfy ===
/** The message side of the MQTT controller hook: turning a received
    payload and its topic into a `ControllerPayload`, the topic the client
    subscribes to in multiplayer mode, and the broker URL it connects to.
    `JSON.parse` is not modelled; its outcome is an input. */
module Controller {
  import opened Wrappers
  import Text

  /** A JSON value found under one key of a parsed object. */
  datatype JsonValue =
    | JNumber(n: real)
    | JString(s: string)
    | JBool(b: bool)
    | JNull
    | JArray
    | JObject

  /** What `JSON.parse(raw)` did: produced an object, produced some other
      non-null value (every property read on it is `undefined`), or threw.
      A parsed `null` behaves like a throw, because reading a property of
      `null` raises the TypeError that lands in the same `catch`. */
  datatype ParseOutcome =
    | Object(fields: map<string, JsonValue>)
    | NonObject
    | Failed

  datatype ControllerEvent = Connect | Run

  datatype ControllerPayload = ControllerPayload(
    raw: string,
    playerId: Option<string>,
    dx: Option<real>,
    dy: Option<real>,
    button: Option<string>,
    step: Option<real>,
    event: Option<ControllerEvent>,
    id: Option<string>)

  predicate IsNumberAt(f: map<string, JsonValue>, key: string)
  {
    key in f && f[key].JNumber?
  }

  predicate IsStringAt(f: map<string, JsonValue>, key: string)
  {
    key in f && f[key].JString?
  }

  /** The first of `keys` holding a number (`typeof v === "number"`). */
  function FirstNumber(f: map<string, JsonValue>, keys: seq<string>): (r: Option<real>)
    ensures r.Some? <==> exists i :: 0 <= i < |keys| && IsNumberAt(f, keys[i])
    ensures r.Some? ==> exists i :: && 0 <= i < |keys| && IsNumberAt(f, keys[i])
                                    && r.value == f[keys[i]].n
                                    && forall j :: 0 <= j < i ==> !IsNumberAt(f, keys[j])
  {
    if |keys| == 0 then None
    else if IsNumberAt(f, keys[0]) then Some(f[keys[0]].n)
    else FirstNumber(f, keys[1..])
  }

  /** The first of `keys` holding a string (`typeof v === "string"`). */
  function FirstString(f: map<string, JsonValue>, keys: seq<string>): (r: Option<string>)
    ensures r.Some? <==> exists i :: 0 <= i < |keys| && IsStringAt(f, keys[i])
    ensures r.Some? ==> exists i :: && 0 <= i < |keys| && IsStringAt(f, keys[i])
                                    && r.value == f[keys[i]].s
                                    && forall j :: 0 <= j < i ==> !IsStringAt(f, keys[j])
  {
    if |keys| == 0 then None
    else if IsStringAt(f, keys[0]) then Some(f[keys[0]].s)
    else FirstString(f, keys[1..])
  }

  /** The first number among two keys: the first key when it holds one,
      else the second. */
  lemma FirstNumberOfTwo(f: map<string, JsonValue>, a: string, b: string)
    ensures FirstNumber(f, [a, b]) ==
            if IsNumberAt(f, a) then Some(f[a].n) else if IsNumberAt(f, b) then Some(f[b].n) else None
  {
    assert [a, b][1..] == [b];
    assert [b][1..] == [];
  }

  lemma FirstNumberOfOne(f: map<string, JsonValue>, a: string)
    ensures FirstNumber(f, [a]) == if IsNumberAt(f, a) then Some(f[a].n) else None
  {
    assert [a][1..] == [];
  }

  /** The first string among two keys: the first key when it holds one,
      else the second. */
  lemma FirstStringOfTwo(f: map<string, JsonValue>, a: string, b: string)
    ensures FirstString(f, [a, b]) ==
            if IsStringAt(f, a) then Some(f[a].s) else if IsStringAt(f, b) then Some(f[b].s) else None
  {
    assert [a, b][1..] == [b];
    assert [b][1..] == [];
  }

  lemma FirstStringOfOne(f: map<string, JsonValue>, a: string)
    ensures FirstString(f, [a]) == if IsStringAt(f, a) then Some(f[a].s) else None
  {
    assert [a][1..] == [];
  }

  /** The event named by the `event` property, if it is one of the two known. */
  function EventOf(f: map<string, JsonValue>): (e: Option<ControllerEvent>)
    ensures e == Some(Connect) <==> "event" in f && f["event"] == JString("connect")
    ensures e == Some(Run) <==> "event" in f && f["event"] == JString("run")
  {
    assert "connect"[0] != "run"[0];
    if "event" in f && f["event"] == JString("connect") then Some(Connect)
    else if "event" in f && f["event"] == JString("run") then Some(Run)
    else None
  }

  /** The payload read from the properties of a parsed value. */
  function FromFields(raw: string, playerId: Option<string>, f: map<string, JsonValue>): ControllerPayload
  {
    var button := FirstString(f, ["button", "key"]);
    ControllerPayload(
      raw := raw,
      playerId := playerId,
      dx := FirstNumber(f, ["dx", "x"]),
      dy := FirstNumber(f, ["dy", "y"]),
      button := if button.Some? then Some(Text.ToLower(button.value)) else None,
      step := FirstNumber(f, ["step"]),
      event := EventOf(f),
      id := FirstString(f, ["id"]))
  }

  /** Each field of `FromFields` spelled out key by key. */
  lemma FieldsRead(raw: string, playerId: Option<string>, f: map<string, JsonValue>)
    ensures var p := FromFields(raw, playerId, f);
            && p.raw == raw && p.playerId == playerId
            && p.dx == (if IsNumberAt(f, "dx") then Some(f["dx"].n)
                        else if IsNumberAt(f, "x") then Some(f["x"].n) else None)
            && p.dy == (if IsNumberAt(f, "dy") then Some(f["dy"].n)
                        else if IsNumberAt(f, "y") then Some(f["y"].n) else None)
            && p.button == (if IsStringAt(f, "button") then Some(Text.ToLower(f["button"].s))
                            else if IsStringAt(f, "key") then Some(Text.ToLower(f["key"].s)) else None)
            && p.step == (if IsNumberAt(f, "step") then Some(f["step"].n) else None)
            && p.event == EventOf(f)
            && p.id == (if IsStringAt(f, "id") then Some(f["id"].s) else None)
  {
    FirstNumberOfTwo(f, "dx", "x");
    FirstNumberOfTwo(f, "dy", "y");
    FirstStringOfTwo(f, "button", "key");
    FirstNumberOfOne(f, "step");
    FirstStringOfOne(f, "id");
  }

  /** `normalizePayload(raw, topic)` given what `JSON.parse(raw)` did. */
  function Normalize(raw: string, topic: Option<string>, parsed: ParseOutcome): (p: ControllerPayload)
    // the original text is always kept
    ensures p.raw == raw
    // the player id is the last '/'-separated segment of the topic
    ensures topic.None? ==> p.playerId.None?
    ensures topic.Some? ==> p.playerId.Some?
                            && '/' !in p.playerId.value
                            && |p.playerId.value| <= |topic.value|
                            && topic.value[|topic.value| - |p.playerId.value|..] == p.playerId.value
                            && (|p.playerId.value| < |topic.value| ==>
                                  topic.value[|topic.value| - |p.playerId.value| - 1] == '/')
    // a failed parse keeps only the trimmed, lower-cased text as the button
    ensures parsed.Failed? ==>
              && p.button == Some(Text.ToLower(Text.Trim(raw)))
              && p.dx.None? && p.dy.None? && p.step.None? && p.event.None? && p.id.None?
    // a parsed value that is no object yields no fields at all
    ensures parsed.NonObject? ==>
              p.dx.None? && p.dy.None? && p.button.None? && p.step.None? && p.event.None? && p.id.None?
    // a button token is always lower-case
    ensures p.button.Some? ==> forall i :: 0 <= i < |p.button.value| ==> !Text.IsUpperAscii(p.button.value[i])
    // dx comes from a numeric "dx", else from a numeric "x"
    ensures p.dx.Some? <==> parsed.Object? && (IsNumberAt(parsed.fields, "dx") || IsNumberAt(parsed.fields, "x"))
    ensures parsed.Object? && IsNumberAt(parsed.fields, "dx") ==> p.dx == Some(parsed.fields["dx"].n)
    ensures parsed.Object? && !IsNumberAt(parsed.fields, "dx") && IsNumberAt(parsed.fields, "x") ==>
              p.dx == Some(parsed.fields["x"].n)
    // dy comes from a numeric "dy", else from a numeric "y"
    ensures p.dy.Some? <==> parsed.Object? && (IsNumberAt(parsed.fields, "dy") || IsNumberAt(parsed.fields, "y"))
    ensures parsed.Object? && IsNumberAt(parsed.fields, "dy") ==> p.dy == Some(parsed.fields["dy"].n)
    ensures parsed.Object? && !IsNumberAt(parsed.fields, "dy") && IsNumberAt(parsed.fields, "y") ==>
              p.dy == Some(parsed.fields["y"].n)
    // the button comes from a string "button", else from a string "key"
    ensures parsed.Object? ==>
              (p.button.Some? <==> IsStringAt(parsed.fields, "button") || IsStringAt(parsed.fields, "key"))
    ensures parsed.Object? && IsStringAt(parsed.fields, "button") ==>
              p.button == Some(Text.ToLower(parsed.fields["button"].s))
    ensures parsed.Object? && !IsStringAt(parsed.fields, "button") && IsStringAt(parsed.fields, "key") ==>
              p.button == Some(Text.ToLower(parsed.fields["key"].s))
    // step only when numeric, id only when a string
    ensures p.step.Some? <==> parsed.Object? && IsNumberAt(parsed.fields, "step")
    ensures p.step.Some? ==> p.step.value == parsed.fields["step"].n
    ensures p.id.Some? <==> parsed.Object? && IsStringAt(parsed.fields, "id")
    ensures p.id.Some? ==> p.id.value == parsed.fields["id"].s
    // the event only when it is exactly "connect" or "run"
    ensures p.event == Some(Connect) <==>
              parsed.Object? && "event" in parsed.fields && parsed.fields["event"] == JString("connect")
    ensures p.event == Some(Run) <==>
              parsed.Object? && "event" in parsed.fields && parsed.fields["event"] == JString("run")
  {
    var playerId := if topic.Some? then Some(Text.LastSegment(topic.value, '/')) else None;
    match parsed
    case Object(f) =>
      FieldsRead(raw, playerId, f);
      FromFields(raw, playerId, f)
    case NonObject =>
      FieldsRead(raw, playerId, map[]);
      FromFields(raw, playerId, map[])
    case Failed => FromText(raw, playerId)
  }

  /** The payload of a text that is no JSON: the cleaned-up word as the button. */
  function FromText(raw: string, playerId: Option<string>): ControllerPayload
  {
    ControllerPayload(raw, playerId, None, None, Some(Text.ToLower(Text.Trim(raw))), None, None, None)
  }

  /** A text that is no JSON at all becomes a bare button press: nothing
      but the text, the topic's player id and the cleaned-up word. */
  lemma FailedParseFields(raw: string, topic: string)
    ensures Normalize(raw, Some(topic), Failed) ==
            ControllerPayload(raw, Some(Text.LastSegment(topic, '/')), None, None,
                              Some(Text.ToLower(Text.Trim(raw))), None, None, None)
  {
    assert Normalize(raw, Some(topic), Failed) == FromText(raw, Some(Text.LastSegment(topic, '/')));
  }

  /** A bare word with no padding and no capitals arrives as itself: the
      button token is the word unchanged. */
  lemma BareWordPayload(word: string, topic: string)
    requires |word| > 0 && !Text.IsJsWhitespace(word[0]) && !Text.IsJsWhitespace(word[|word| - 1])
    requires forall i :: 0 <= i < |word| ==> !Text.IsUpperAscii(word[i])
    ensures Normalize(word, Some(topic), Failed) ==
            ControllerPayload(word, Some(Text.LastSegment(topic, '/')), None, None, Some(word), None, None, None)
  {
    assert "" + word + "" == word;
    Text.TrimPadded("", word, "");
    Text.LowerOfLowerCase(word);
    FailedParseFields(word, topic);
  }

  predicate IsAsciiDigit(c: char) { '0' <= c <= '9' }

  predicate AllDigits(s: string)
  {
    forall i :: 0 <= i < |s| ==> IsAsciiDigit(s[i])
  }

  /** The regular expression `/\/player\d+$/` matches `t` from index `k` on. */
  predicate PlayerSuffixAt(t: string, k: int)
  {
    && 0 <= k && k + 8 <= |t|
    && t[k..k + 7] == "/player"
    && AllDigits(t[k + 7..])
  }

  /** Length of the run of digits at the end of `s`. */
  function DigitSuffix(s: string): (n: nat)
    ensures n <= |s|
    ensures AllDigits(s[|s| - n..])
    ensures n < |s| ==> !IsAsciiDigit(s[|s| - n - 1])
  {
    if |s| > 0 && IsAsciiDigit(s[|s| - 1]) then
      var m := DigitSuffix(s[..|s| - 1]);
      DigitsThenDigit(s, m);
      m + 1
    else 0
  }

  /** A digit run at the end of all but the last character, followed by a
      last digit, is a digit run one longer. */
  lemma DigitsThenDigit(s: string, m: nat)
    requires |s| > 0 && IsAsciiDigit(s[|s| - 1])
    requires m <= |s| - 1 && AllDigits(s[..|s| - 1][|s| - 1 - m..])
    ensures AllDigits(s[|s| - (m + 1)..])
  {
    assert s[|s| - (m + 1)..] == s[..|s| - 1][|s| - 1 - m..] + [s[|s| - 1]];
  }

  /** The pattern can match at one index at most. */
  lemma PlayerSuffixUnique(t: string, k: int)
    requires PlayerSuffixAt(t, k)
    ensures k == |t| - DigitSuffix(t) - 7
  {
    assert t[k + 6] == t[k..k + 7][6] == 'r';
  }

  /** The topic the client subscribes to: in multiplayer mode a trailing
      `/player<digits>` becomes the single-level wildcard `/+`. */
  function SubscriptionTopic(topic: string, multiPlayer: bool): (r: string)
    ensures !multiPlayer ==> r == topic
    ensures forall k :: PlayerSuffixAt(topic, k) && multiPlayer ==> r == topic[..k] + "/+"
    ensures (forall k :: !PlayerSuffixAt(topic, k)) ==> r == topic
  {
    var k := |topic| - DigitSuffix(topic) - 7;
    if !multiPlayer then topic
    else if PlayerSuffixAt(topic, k) then
      assert forall k' :: PlayerSuffixAt(topic, k') ==> k' == k by {
        forall k' | PlayerSuffixAt(topic, k') { PlayerSuffixUnique(topic, k'); }
      }
      topic[..k] + "/+"
    else
      assert forall k' :: !PlayerSuffixAt(topic, k') by {
        forall k' | PlayerSuffixAt(topic, k') ensures false { PlayerSuffixUnique(topic, k'); }
      }
      topic
  }

  /** The broker URL: empty when none is configured, and with `ws://`
      upgraded to `wss://` when the page itself was served over https.
      `pageProtocol` is `window.location.protocol`, absent on the server. */
  function BrokerUrl(configured: Option<string>, pageProtocol: Option<string>): (r: string)
    ensures r == "" <==> configured.None? || configured.value == ""
    ensures pageProtocol != Some("https:") ==> r == configured.GetOr("")
    ensures pageProtocol == Some("https:") ==> !Text.StartsWith(r, "ws://")
    ensures pageProtocol == Some("https:") && configured.Some? && Text.StartsWith(configured.value, "ws://") ==>
              r == "wss://" + configured.value[5..]
    ensures pageProtocol == Some("https:") && configured.Some? && !Text.StartsWith(configured.value, "ws://") ==>
              r == configured.value
  {
    var base := configured.GetOr("");
    if base == "" then ""
    else if pageProtocol == Some("https:") && Text.StartsWith(base, "ws://") then
      assert ("wss://" + base[5..])[2] == 's';
      "wss://" + base[5..]
    else base
  }

  /** Rewriting the topic a second time changes nothing: the wildcard form
      ends in `+`, which the pattern cannot match. */
  lemma SubscriptionTopicIdempotent(topic: string, multiPlayer: bool)
    ensures SubscriptionTopic(SubscriptionTopic(topic, multiPlayer), multiPlayer)
            == SubscriptionTopic(topic, multiPlayer)
  {
  }

  /** The fixed player topic becomes the wildcard; the wildcard topic the
      play screen actually passes is left as it is. */
  lemma PlayerTopicsBecomeWildcard()
    ensures SubscriptionTopic("yokohama/hackathon/running/player1", true) == "yokohama/hackathon/running/+"
    ensures SubscriptionTopic("yokohama/hackathon/running/player12", false) == "yokohama/hackathon/running/player12"
    ensures SubscriptionTopic("yokohama/hackathon/running/+", true) == "yokohama/hackathon/running/+"
  {
    var t := "yokohama/hackathon/running/player1";
    assert PlayerSuffixAt(t, 26);
    assert t[..26] == "yokohama/hackathon/running";
  }

  /** Computing the broker URL from an already computed one changes nothing. */
  lemma BrokerUrlIdempotent(configured: Option<string>, pageProtocol: Option<string>)
    ensures BrokerUrl(Some(BrokerUrl(configured, pageProtocol)), pageProtocol)
            == BrokerUrl(configured, pageProtocol)
  {
  }

  /** A button message on a player's topic keeps its player id and
      lower-cases the token. */
  lemma ButtonMessageExample()
    ensures var p := Normalize("{\"button\":\"RIGHT\"}", Some("yokohama/hackathon/running/player2"),
                               Object(map["button" := JString("RIGHT")]));
            p.button == Some("right") && p.playerId == Some("player2") && p.event.None? && p.id.None?
  {
    Text.LastSegmentAfterSeparator("yokohama/hackathon/running", '/', "player2");
    assert "yokohama/hackathon/running" + ['/'] + "player2" == "yokohama/hackathon/running/player2";
    assert Text.ToLower("RIGHT") == "right";
  }

  /** Text that fails to parse degrades to the trimmed, lower-cased text. */
  lemma UnparsedButtonExample()
    ensures Normalize(" RIGHT\n", Some("m5stick/buttons"), Failed).button == Some("right")
  {
    Text.TrimPadded(" ", "RIGHT", "\n");
    assert " " + "RIGHT" + "\n" == " RIGHT\n";
    assert Text.ToLower("RIGHT") == "right";
  }
}

=== FILE: hex.dfy ===
/** `parseInt(s, 16)` as ECMAScript defines it: skip leading whitespace,
    read an optional sign, drop an optional `0x`/`0X` prefix, then read the
    longest run of hexadecimal digits. An empty run is NaN, written `None`.
    The model keeps the exact integer; the source's double only rounds
    values far above the 0x80 threshold, so every comparison with it agrees. */
module Hex {
  import opened Wrappers
  import Text

  predicate IsHexDigit(c: char)
  {
    ('0' <= c <= '9') || ('a' <= c <= 'f') || ('A' <= c <= 'F')
  }

  predicate AllHex(s: string)
  {
    forall i :: 0 <= i < |s| ==> IsHexDigit(s[i])
  }

  function DigitValue(c: char): (v: nat)
    requires IsHexDigit(c)
    ensures v < 16
  {
    if '0' <= c <= '9' then c as int - '0' as int
    else if 'a' <= c <= 'f' then c as int - 'a' as int + 10
    else c as int - 'A' as int + 10
  }

  /** The number a string of hexadecimal digits denotes, most significant first. */
  function Value(ds: string): nat
    requires AllHex(ds)
  {
    if |ds| == 0 then 0 else 16 * Value(ds[..|ds| - 1]) + DigitValue(ds[|ds| - 1])
  }

  /** Length of the run of hexadecimal digits at the front of `s`. */
  function DigitRun(s: string): (n: nat)
    ensures n <= |s|
    ensures AllHex(s[..n])
    ensures n < |s| ==> !IsHexDigit(s[n])
  {
    if |s| > 0 && IsHexDigit(s[0]) then
      var n := DigitRun(s[1..]) + 1;
      assert s[..n] == [s[0]] + s[1..][..n - 1];
      n
    else 0
  }

  function ParseInt16(s: string): Option<int>
  {
    ParseSigned(Text.TrimStart(s))
  }

  /** The value with the sign that was read. */
  function Signed(negative: bool, v: nat): int
  {
    if negative then -(v as int) else v
  }

  /** `parseInt(t, 16)` once leading whitespace is gone. */
  function ParseSigned(t: string): Option<int>
  {
    var negative := |t| > 0 && t[0] == '-';
    var w := AfterPrefix(AfterSign(t));
    var n := DigitRun(w);
    if n == 0 then None
    else
      Some(Signed(negative, Value(w[..n])))
  }

  /** A non-empty string made only of hexadecimal digits parses to the
      number it denotes. */
  lemma ParseDigits(ds: string)
    requires |ds| > 0 && AllHex(ds)
    ensures ParseInt16(ds) == Some(Value(ds))
  {
    var empty: string := [];
    assert empty + empty + empty + ds + empty == ds;
    ParseInt16Reads(empty, empty, empty, ds, empty);
    assert Signed(empty == "-", Value(ds)) == Value(ds);
  }

  /** The digit run stops where the hexadecimal digits stop. */
  lemma {:induction false} DigitRunStops(ds: string, rest: string)
    requires AllHex(ds)
    requires rest == [] || !IsHexDigit(rest[0])
    ensures DigitRun(ds + rest) == |ds|
    decreases |ds|
  {
    if |ds| > 0 {
      assert (ds + rest)[0] == ds[0];
      assert (ds + rest)[1..] == ds[1..] + rest;
      DigitRunStops(ds[1..], rest);
    } else {
      assert ds + rest == rest;
    }
  }

  /** What is left once the sign is read: the text after it. */
  function AfterSign(t: string): string
  {
    if |t| > 0 && (t[0] == '-' || t[0] == '+') then t[1..] else t
  }

  /** What is left once an `0x`/`0X` prefix is dropped. */
  function AfterPrefix(u: string): string
  {
    if |u| >= 2 && u[0] == '0' && (u[1] == 'x' || u[1] == 'X') then u[2..] else u
  }

  /** The digits after an optional `0x`/`0X` prefix, followed by text that
      does not continue them, are what `AfterPrefix` leaves. */
  lemma PrefixDropped(prefix: string, ds: string, rest: string)
    requires IsHexPrefix(prefix)
    requires |ds| > 0 && AllHex(ds)
    requires prefix == "" ==> !(ds == "0" && |rest| > 0 && (rest[0] == 'x' || rest[0] == 'X'))
    ensures AfterPrefix(prefix + ds + rest) == ds + rest
  {
    var u := prefix + ds + rest;
    if prefix == "" {
      assert u == ds + rest;
      if |ds| >= 2 {
        assert u[1] == ds[1] && IsHexDigit(ds[1]);
      } else if |u| >= 2 {
        assert u[0] == ds[0] && u[1] == rest[0];
      }
    } else {
      assert u[2..] == ds + rest;
    }
  }

  predicate IsSign(sign: string)
  {
    sign == "" || sign == "-" || sign == "+"
  }

  predicate IsHexPrefix(prefix: string)
  {
    prefix == "" || prefix == "0x" || prefix == "0X"
  }

  /** Reading an optional sign in front of text that does not itself start
      with one. */
  lemma SignDropped(sign: string, x: string)
    requires IsSign(sign)
    requires sign == "" ==> |x| > 0 && x[0] != '-' && x[0] != '+'
    ensures AfterSign(sign + x) == x
    ensures (|sign + x| > 0 && (sign + x)[0] == '-') <==> sign == "-"
  {
    if sign == "" {
      assert sign + x == x;
    } else {
      assert (sign + x)[1..] == x;
    }
  }

  /** A sign followed by text that starts with a digit or with no sign
      leaves a first character that is not whitespace. */
  lemma VisibleStart(sign: string, x: string)
    requires IsSign(sign)
    requires sign == "" ==> |x| > 0 && !Text.IsJsWhitespace(x[0])
    ensures |sign + x| > 0 && !Text.IsJsWhitespace((sign + x)[0])
  {
    if sign == "" {
      assert (sign + x)[0] == x[0];
    }
  }

  /** `parseInt(s, 16)` on leading whitespace, an optional sign, an optional
      `0x`/`0X` prefix, a run of hexadecimal digits and any text that does
      not continue the run: the signed value of the run. */
  lemma ParseInt16Reads(pad: string, sign: string, prefix: string, ds: string, rest: string)
    requires Text.AllWhitespace(pad)
    requires IsSign(sign) && IsHexPrefix(prefix)
    requires |ds| > 0 && AllHex(ds)
    requires rest == [] || !IsHexDigit(rest[0])
    requires prefix == "" ==> !(ds == "0" && |rest| > 0 && (rest[0] == 'x' || rest[0] == 'X'))
    ensures ParseInt16(pad + sign + prefix + ds + rest) ==
            Some(Signed(sign == "-", Value(ds)))
  {
    var x := prefix + ds + rest;
    Regroup(pad, sign, prefix, ds, rest);
    assert |x| > 0 && IsHexDigit(x[0]) by {
      if prefix == "" { assert x[0] == ds[0]; } else { assert x[0] == '0'; }
    }
    VisibleStart(sign, x);
    Text.TrimStartSkips(pad, sign + x);
    SignedReads(sign, prefix, ds, rest);
  }

  /** The same reading once leading whitespace is gone. */
  lemma SignedReads(sign: string, prefix: string, ds: string, rest: string)
    requires IsSign(sign) && IsHexPrefix(prefix)
    requires |ds| > 0 && AllHex(ds)
    requires rest == [] || !IsHexDigit(rest[0])
    requires prefix == "" ==> !(ds == "0" && |rest| > 0 && (rest[0] == 'x' || rest[0] == 'X'))
    ensures ParseSigned(sign + (prefix + ds + rest)) ==
            Some(Signed(sign == "-", Value(ds)))
  {
    var x := prefix + ds + rest;
    assert |x| > 0 && IsHexDigit(x[0]) by {
      if prefix == "" { assert x[0] == ds[0]; } else { assert x[0] == '0'; }
    }
    SignDropped(sign, x);
    var w := AfterPrefix(x);
    RunAfterPrefix(prefix, ds, rest);
    SignedSteps(sign + x, x, w, |ds|);
    assert w[..|ds|] == ds;
    assert Value(w[..|ds|]) == Value(ds);
  }

  /** `ParseSigned` read as its steps when the digit run is not empty. */
  lemma SignedSteps(t: string, u: string, w: string, n: nat)
    requires u == AfterSign(t) && w == AfterPrefix(u)
    requires 0 < n == DigitRun(w)
    ensures ParseSigned(t) ==
            Some(Signed(|t| > 0 && t[0] == '-', Value(w[..n])))
  {
  }

  /** After the prefix, the digit run is exactly `ds`. */
  lemma RunAfterPrefix(prefix: string, ds: string, rest: string)
    requires IsHexPrefix(prefix)
    requires |ds| > 0 && AllHex(ds)
    requires rest == [] || !IsHexDigit(rest[0])
    requires prefix == "" ==> !(ds == "0" && |rest| > 0 && (rest[0] == 'x' || rest[0] == 'X'))
    ensures var w := AfterPrefix(prefix + ds + rest);
            DigitRun(w) == |ds| && w[..|ds|] == ds
  {
    PrefixDropped(prefix, ds, rest);
    DigitRunStops(ds, rest);
    assert (ds + rest)[..|ds|] == ds;
  }

  /** Concatenation regrouped so the text after the padding is one piece. */
  lemma Regroup(a: string, b: string, c: string, d: string, e: string)
    ensures a + b + c + d + e == a + (b + (c + d + e))
  {
  }

  /** The shapes `parseInt(s, 16)` reads as NaN: whitespace, an optional
      sign and an optional `0x`/`0X` prefix with no hexadecimal digit after
      them. When neither sign nor prefix is there, what follows the
      whitespace is empty or starts with no whitespace and no sign, so that
      the pieces are where the parser puts them. */
  predicate NaNShape(pad: string, sign: string, prefix: string, rest: string)
  {
    Text.AllWhitespace(pad) && IsSign(sign) && IsHexPrefix(prefix)
    && (rest == [] || !IsHexDigit(rest[0]))
    && (sign == "" && prefix == "" && |rest| > 0 ==>
          !Text.IsJsWhitespace(rest[0]) && rest[0] != '-' && rest[0] != '+')
  }

  /** Every string of a NaN shape is NaN. */
  lemma ParseInt16NaN(pad: string, sign: string, prefix: string, rest: string)
    requires NaNShape(pad, sign, prefix, rest)
    ensures ParseInt16(pad + sign + prefix + rest) == None
  {
    if sign == "" && prefix == "" && rest == [] {
      assert pad + sign + prefix + rest == pad;
      Text.TrimStartBlank(pad);
    } else {
      var x := prefix + rest;
      Regroup(pad, sign, prefix, rest, []);
      assert prefix + rest + [] == x;
      assert pad + sign + prefix + rest + [] == pad + sign + prefix + rest;
      assert sign == "" ==> |x| > 0 && !Text.IsJsWhitespace(x[0]) by {
        if sign == "" {
          if prefix == "" { assert x[0] == rest[0]; } else { assert x[0] == '0'; }
        }
      }
      VisibleStart(sign, x);
      Text.TrimStartSkips(pad, sign + x);
      SignedNaN(sign, prefix, rest);
    }
  }

  /** Conversely, every string that is NaN splits into a NaN shape. */
  lemma NaNPieces(s: string) returns (pad: string, sign: string, prefix: string, rest: string)
    requires ParseInt16(s) == None
    ensures s == pad + sign + prefix + rest
    ensures NaNShape(pad, sign, prefix, rest)
  {
    var t := Text.TrimStart(s);
    pad := s[..|s| - |t|];
    assert s == pad + t;
    sign, prefix, rest := SignedNaNPieces(t);
    Regroup4(pad, sign, prefix, rest);
  }

  lemma Regroup4(a: string, b: string, c: string, d: string)
    ensures a + b + c + d == a + (b + c + d)
  {
  }

  /** The same split once leading whitespace is gone. */
  lemma SignedNaNPieces(t: string) returns (sign: string, prefix: string, rest: string)
    requires ParseSigned(t) == None
    requires t == [] || !Text.IsJsWhitespace(t[0])
    ensures t == sign + prefix + rest
    ensures IsSign(sign) && IsHexPrefix(prefix) && (rest == [] || !IsHexDigit(rest[0]))
    ensures sign == "" && prefix == "" && |rest| > 0 ==>
              !Text.IsJsWhitespace(rest[0]) && rest[0] != '-' && rest[0] != '+'
  {
    var u;
    sign, u := SignPieces(t);
    prefix, rest := PrefixPieces(u);
    assert DigitRun(rest) == 0;
  }

  /** The sign `AfterSign` reads and what it leaves. */
  lemma SignPieces(t: string) returns (sign: string, u: string)
    ensures t == sign + u && u == AfterSign(t) && IsSign(sign)
    ensures sign == "" ==> u == t && (|t| == 0 || (t[0] != '-' && t[0] != '+'))
  {
    if |t| > 0 && (t[0] == '-' || t[0] == '+') {
      sign, u := [t[0]], t[1..];
    } else {
      sign, u := [], t;
    }
  }

  /** The prefix `AfterPrefix` drops and what it leaves. */
  lemma PrefixPieces(u: string) returns (prefix: string, rest: string)
    ensures u == prefix + rest && rest == AfterPrefix(u) && IsHexPrefix(prefix)
    ensures prefix == "" ==> rest == u
  {
    if |u| >= 2 && u[0] == '0' && (u[1] == 'x' || u[1] == 'X') {
      prefix, rest := u[..2], u[2..];
      assert prefix == ['0', u[1]];
    } else {
      prefix, rest := [], u;
    }
  }

  /** The same NaN cases once leading whitespace is gone. */
  lemma SignedNaN(sign: string, prefix: string, rest: string)
    requires IsSign(sign) && IsHexPrefix(prefix)
    requires rest == [] || !IsHexDigit(rest[0])
    requires sign == "" && prefix == "" ==> |rest| > 0 && rest[0] != '-' && rest[0] != '+'
    ensures ParseSigned(sign + (prefix + rest)) == None
  {
    var x := prefix + rest;
    assert sign == "" ==> |x| > 0 && x[0] != '-' && x[0] != '+' by {
      if sign == "" {
        if prefix == "" { assert x[0] == rest[0]; } else { assert x[0] == '0'; }
      }
    }
    SignDropped(sign, x);
    assert AfterPrefix(x) == rest by {
      if prefix == "" {
        assert x == rest;
      } else {
        assert x[2..] == rest;
      }
    }
  }

  /** A string that starts with neither whitespace, a sign nor a digit is NaN. */
  lemma ParseNonDigitIsNaN(s: string)
    requires |s| > 0 && !IsHexDigit(s[0]) && !Text.IsJsWhitespace(s[0])
    requires s[0] != '-' && s[0] != '+'
    ensures ParseInt16(s) == None
  {
    assert Text.TrimStart(s) == s;
    assert DigitRun(s) == 0;
  }

  /** Two hexadecimal digits denote a number below 0x80 exactly when the
      first of them is below 8. */
  lemma TwoDigitsBelowHalf(ds: string)
    requires |ds| == 2 && AllHex(ds)
    ensures Value(ds) < 0x80 <==> DigitValue(ds[0]) < 8
  {
    var hi := ds[..1];
    assert hi[..0] == [] && hi[0] == ds[0];
    assert Value(hi) == DigitValue(ds[0]);
    assert Value(ds) == 16 * Value(hi) + DigitValue(ds[1]);
  }

  /** Upper-casing hexadecimal digits keeps both their being digits and the
      number they denote. */
  lemma {:induction false} ValueIgnoresCase(ds: string)
    requires AllHex(ds)
    ensures AllHex(Text.ToUpper(ds))
    ensures Value(Text.ToUpper(ds)) == Value(ds)
  {
    var up := Text.ToUpper(ds);
    assert AllHex(up) by {
      forall i | 0 <= i < |up| ensures IsHexDigit(up[i]) {
        assert up[i] == Text.UpperChar(ds[i]);
      }
    }
    if |ds| > 0 {
      var init := ds[..|ds| - 1];
      ValueIgnoresCase(init);
      assert up[..|up| - 1] == Text.ToUpper(init);
      assert DigitValue(up[|up| - 1]) == DigitValue(ds[|ds| - 1]);
    }
  }
}

=== FILE: ordered_map.dfy ===
/** A JavaScript `Map` as a sequence of key/value entries in insertion
    order. `set` on a present key replaces its value where it stands, `set`
    on a new key appends, and deleting while iterating is a filter. */
module OrderedMap {
  import opened Wrappers
  import Seqs

  /** No key occurs twice. */
  predicate UniqueKeys<K(==), V>(m: seq<(K, V)>)
  {
    forall i, j :: 0 <= i < j < |m| ==> m[i].0 != m[j].0
  }

  predicate HasKey<K(==,!new), V(!new)>(m: seq<(K, V)>, k: K)
  {
    exists i :: 0 <= i < |m| && m[i].0 == k
  }

  /** Position of the entry for `k`, or -1. */
  function IndexOf<K(==,!new), V(!new)>(m: seq<(K, V)>, k: K): (i: int)
    ensures -1 <= i < |m|
    ensures 0 <= i ==> m[i].0 == k && forall j :: 0 <= j < i ==> m[j].0 != k
    ensures i == -1 <==> !HasKey(m, k)
  {
    Seqs.FirstIndex(m, (e: (K, V)) => e.0 == k)
  }

  /** `m.get(k)`. */
  function Get<K(==,!new), V(!new)>(m: seq<(K, V)>, k: K): (r: Option<V>)
    ensures r.Some? <==> HasKey(m, k)
    ensures UniqueKeys(m) ==> forall i :: 0 <= i < |m| && m[i].0 == k ==> r == Some(m[i].1)
  {
    var i := IndexOf(m, k);
    if i < 0 then None else Some(m[i].1)
  }

  /** `m.set(k, v)`: afterwards `k` maps to `v`, every other key maps to
      what it mapped to before, a present key keeps its place and a new key
      goes to the end. */
  function Set<K(==,!new), V(!new)>(m: seq<(K, V)>, k: K, v: V): (r: seq<(K, V)>)
    ensures UniqueKeys(m) ==> UniqueKeys(r)
    ensures Get(r, k) == Some(v)
    ensures forall k' :: k' != k ==> Get(r, k') == Get(m, k')
    ensures HasKey(m, k) ==> |r| == |m| && forall i :: 0 <= i < |m| ==> r[i].0 == m[i].0
    ensures UniqueKeys(m) && HasKey(m, k) ==>
              forall i :: 0 <= i < |m| ==> r[i] == (if m[i].0 == k then (k, v) else m[i])
    ensures !HasKey(m, k) ==> r == m + [(k, v)]
  {
    var i := IndexOf(m, k);
    if i >= 0 then
      var r := m[i := (k, v)];
      SameKeysSameIndex(m, r, k, i);
      r
    else
      var r := m + [(k, v)];
      SameKeysSameIndex(m, r, k, |m|);
      r
  }

  /** Two entry sequences whose keys agree on a common prefix of length `n`
      locate every key outside of position `n` at the same index, and `k`,
      which sits at `n` in `r` and not before, at `n`. */
  lemma SameKeysSameIndex<K(!new), V(!new)>(m: seq<(K, V)>, r: seq<(K, V)>, k: K, n: int)
    requires 0 <= n < |r| && n <= |m| && r[n].0 == k
    requires |r| == |m| || (|r| == |m| + 1 && n == |m|)
    requires forall j :: 0 <= j < |m| && j != n ==> r[j].0 == m[j].0
    requires forall j :: 0 <= j < n ==> m[j].0 != k
    requires n < |m| ==> m[n].0 == k
    ensures IndexOf(r, k) == n
    ensures forall k' :: k' != k ==> IndexOf(r, k') == IndexOf(m, k')
  {
    forall k' | k' != k
      ensures IndexOf(r, k') == IndexOf(m, k')
    {
    }
  }

  /** The entries whose value satisfies `keep`, in their original order. */
  function Filter<K(==,!new), V(!new)>(m: seq<(K, V)>, keep: V -> bool): (r: seq<(K, V)>)
    ensures forall e :: e in r <==> e in m && keep(e.1)
    ensures UniqueKeys(m) ==> UniqueKeys(r)
    ensures |r| <= |m|
  {
    if |m| == 0 then []
    else
      var rest := Filter(m[1..], keep);
      if keep(m[0].1) then
        assert UniqueKeys(m) ==> forall e :: e in rest ==> e.0 != m[0].0 by {
          if UniqueKeys(m) {
            forall e | e in rest ensures e.0 != m[0].0 {
              var j :| 0 <= j < |m[1..]| && m[1..][j] == e;
              assert m[j + 1] == e;
            }
          }
        }
        [m[0]] + rest
      else rest
  }

  /** Filtering a concatenation filters each part and keeps them in order. */
  lemma {:induction false} FilterAppend<K(!new), V(!new)>(a: seq<(K, V)>, b: seq<(K, V)>, keep: V -> bool)
    ensures Filter(a + b, keep) == Filter(a, keep) + Filter(b, keep)
    decreases |a|
  {
    if |a| > 0 {
      assert (a + b)[0] == a[0];
      assert (a + b)[1..] == a[1..] + b;
      FilterAppend(a[1..], b, keep);
    } else {
      assert a + b == b;
    }
  }

  /** Kept entries keep their relative order: when both `m[i]` and a later
      `m[j]` are kept, `m[i]` comes first in the result. */
  lemma FilterKeepsOrder<K(!new), V(!new)>(m: seq<(K, V)>, keep: V -> bool, i: int, j: int)
    requires 0 <= i < j < |m| && keep(m[i].1) && keep(m[j].1)
    ensures exists a, b :: 0 <= a < b < |Filter(m, keep)| && Filter(m, keep)[a] == m[i] && Filter(m, keep)[b] == m[j]
  {
    var front, back := m[..j], m[j..];
    assert m == front + back;
    FilterAppend(front, back, keep);
    var f, g := Filter(front, keep), Filter(back, keep);
    assert back == [m[j]] + back[1..];
    FilterAppend([m[j]], back[1..], keep);
    assert Filter([m[j]], keep) == [m[j]] by {
      assert [m[j]][1..] == [];
    }
    assert g[0] == m[j];
    assert m[i] == front[i];
    assert m[i] in f;
    var a :| 0 <= a < |f| && f[a] == m[i];
    assert Filter(m, keep)[a] == m[i] && Filter(m, keep)[|f|] == m[j];
  }

  /** After filtering, a key maps to what it mapped to before if that
      value is kept, and to nothing otherwise. */
  lemma GetFilter<K(!new), V(!new)>(m: seq<(K, V)>, keep: V -> bool, k: K)
    requires UniqueKeys(m)
    ensures Get(Filter(m, keep), k) ==
              if Get(m, k).Some? && keep(Get(m, k).value) then Get(m, k) else None
  {
    var r := Filter(m, keep);
    if HasKey(r, k) {
      var i :| 0 <= i < |r| && r[i].0 == k;
      assert r[i] in m;
      var j :| 0 <= j < |m| && m[j] == r[i];
    }
  }
}

=== FILE: play.dfy ===
/** The play screen: pairing physical controllers, identified by MAC
    address, with a player slot and a selected drawing; selecting drawings;
    and the views the screen derives from the pairings. */
module Play {
  import opened Wrappers
  import Text
  import Hex
  import Seqs
  import OrderedMap
  import Controller

  datatype Slot = Player1 | Player2

  datatype Pairing = Pairing(playerId: Slot, drawingId: string)

  /** MAC address to pairing, in insertion order (a JavaScript `Map`). */
  type Pairings = m: seq<(string, Pairing)> | OrderedMap.UniqueKeys(m) witness []

  datatype Drawing = Drawing(id: string, url: string)

  datatype Position = Position(x: int, y: int)

  /** The part of the screen's state that the handlers below read and write. */
  datatype PlayState = PlayState(
    drawings: seq<Drawing>,
    active: Option<Drawing>,
    pairings: Pairings,
    positions: map<string, Position>)

  /* ---------- Slot from MAC address (defined in the source, never called) ---------- */

  /** `configured` is set (and not empty once upper-cased) and names `mac`,
      ignoring case. */
  predicate ConfiguredMatch(mac: string, configured: Option<string>)
  {
    configured.Some? && Text.ToUpper(configured.value) != ""
    && Text.ToUpper(mac) == Text.ToUpper(configured.value)
  }

  /** The upper-cased last `:` group of the address, `"00"` when empty. */
  function LastByte(mac: string): string
  {
    var segment := Text.ToUpper(Text.LastSegment(mac, ':'));
    if segment == "" then "00" else segment
  }

  /** `resolvePlayerIdFromMac`: a configured address wins; otherwise the
      last group read as hexadecimal decides, below 0x80 being player 1 and
      everything else, NaN included, player 2. */
  function ResolvePlayerIdFromMac(mac: string, player1Mac: Option<string>, player2Mac: Option<string>): (s: Slot)
    ensures ConfiguredMatch(mac, player1Mac) ==> s == Player1
    ensures !ConfiguredMatch(mac, player1Mac) && ConfiguredMatch(mac, player2Mac) ==> s == Player2
    ensures !ConfiguredMatch(mac, player1Mac) && !ConfiguredMatch(mac, player2Mac) ==>
              (s == Player1 <==> Hex.ParseInt16(LastByte(mac)).Some? && Hex.ParseInt16(LastByte(mac)).value < 0x80)
  {
    if ConfiguredMatch(mac, player1Mac) then Player1
    else if ConfiguredMatch(mac, player2Mac) then Player2
    else
      match Hex.ParseInt16(LastByte(mac))
      case Some(v) => if v < 0x80 then Player1 else Player2
      case None => Player2
  }

  /** With no configured match, an address whose last group is made of
      hexadecimal digits is player 1 exactly when that group denotes a
      number below 0x80, whatever the case of its letters. */
  lemma LastByteDecidesSlot(prefix: string, group: string, player1Mac: Option<string>, player2Mac: Option<string>)
    requires |group| > 0 && Hex.AllHex(group)
    requires !ConfiguredMatch(prefix + ":" + group, player1Mac)
    requires !ConfiguredMatch(prefix + ":" + group, player2Mac)
    ensures ResolvePlayerIdFromMac(prefix + ":" + group, player1Mac, player2Mac) == Player1
            <==> Hex.Value(group) < 0x80
  {
    var mac := prefix + ":" + group;
    assert forall i :: 0 <= i < |group| ==> group[i] != ':' by {
      forall i | 0 <= i < |group| ensures group[i] != ':' { assert Hex.IsHexDigit(group[i]); }
    }
    Text.LastSegmentAfterSeparator(prefix, ':', group);
    assert prefix + [':'] + group == mac;
    Hex.ValueIgnoresCase(group);
    Hex.ParseDigits(Text.ToUpper(group));
  }

  /** With no configured match, a last group that `parseInt` reads as NaN
      (whitespace, an optional sign and an optional `0X` prefix with no
      hexadecimal digit after them, as `Hex.NaNShape` describes and
      `Hex.NaNPieces` shows to be every NaN) gives player 2. */
  lemma NaNLastByteIsPlayer2(mac: string, player1Mac: Option<string>, player2Mac: Option<string>,
                             pad: string, sign: string, prefix: string, rest: string)
    requires !ConfiguredMatch(mac, player1Mac) && !ConfiguredMatch(mac, player2Mac)
    requires LastByte(mac) == pad + sign + prefix + rest
    requires Hex.NaNShape(pad, sign, prefix, rest)
    ensures ResolvePlayerIdFromMac(mac, player1Mac, player2Mac) == Player2
  {
    Hex.ParseInt16NaN(pad, sign, prefix, rest);
  }

  /** Addresses with an empty last group, the empty address or one ending
      in `:`, fall back to `"00"`: player 1. */
  lemma EmptyLastByteIsPlayer1(mac: string, player1Mac: Option<string>, player2Mac: Option<string>)
    requires !ConfiguredMatch(mac, player1Mac) && !ConfiguredMatch(mac, player2Mac)
    requires Text.LastSegment(mac, ':') == ""
    ensures ResolvePlayerIdFromMac(mac, player1Mac, player2Mac) == Player1
  {
    var group := LastByte(mac);
    assert |group| == 2 && group[0] == '0' && group[1] == '0' by {
      assert |Text.ToUpper(Text.LastSegment(mac, ':'))| == 0;
    }
    ZeroGroupIsLow(group);
  }

  /** A group of two zeros, like the fallback `"00"`, reads below 0x80. */
  lemma ZeroGroupIsLow(group: string)
    requires |group| == 2 && group[0] == '0' && group[1] == '0'
    ensures Hex.ParseInt16(group).Some? && Hex.ParseInt16(group).value < 0x80
  {
    Hex.ParseDigits(group);
    Hex.TwoDigitsBelowHalf(group);
  }

  /* ---------- Pairing on a connect message ---------- */

  /** `resolveMacAddress`: the upper-cased `id`, provided it holds a `:`. */
  function ResolveMacAddress(payload: Controller.ControllerPayload): (mac: Option<string>)
    ensures mac.Some? <==> payload.id.Some? && ':' in payload.id.value
    ensures mac.Some? ==> mac.value == Text.ToUpper(payload.id.value) && ':' in mac.value
  {
    if payload.id.Some? && ':' in payload.id.value then
      Text.UpperKeepsNonLetters(payload.id.value, ':');
      Some(Text.ToUpper(payload.id.value))
    else None
  }

  /** Ids that differ only in the case of their letters name one controller. */
  lemma MacKeyIgnoresCase(p: Controller.ControllerPayload, q: Controller.ControllerPayload)
    requires p.id.Some? && q.id.Some? && Text.ToUpper(p.id.value) == Text.ToUpper(q.id.value)
    ensures ResolveMacAddress(p) == ResolveMacAddress(q)
  {
    Text.UpperKeepsNonLetters(p.id.value, ':');
    Text.UpperKeepsNonLetters(q.id.value, ':');
  }

  predicate SlotTaken(reg: seq<(string, Pairing)>, s: Slot)
  {
    exists i :: 0 <= i < |reg| && reg[i].1.playerId == s
  }

  /** No two pairings hold slot `s`. */
  predicate AtMostOneHolder(reg: seq<(string, Pairing)>, s: Slot)
  {
    forall i, j :: 0 <= i < |reg| && 0 <= j < |reg| && reg[i].1.playerId == s && reg[j].1.playerId == s ==> i == j
  }

  /** Only the pairing of `mac` references `drawingId`. */
  predicate SoleHolderOf(reg: seq<(string, Pairing)>, drawingId: string, mac: string)
  {
    forall i :: 0 <= i < |reg| && reg[i].1.drawingId == drawingId ==> reg[i].0 == mac
  }

  /** The slot a controller seen for the first time receives: first come,
      first served, and never a refusal. */
  function NewControllerSlot(reg: seq<(string, Pairing)>): Slot
  {
    if SlotTaken(reg, Player1) then Player2 else Player1
  }

  function DropDrawing(reg: Pairings, drawingId: string): (r: Pairings)
  {
    OrderedMap.Filter(reg, (p: Pairing) => p.drawingId != drawingId)
  }

  /** Filtering cannot create a second holder of a slot. */
  lemma DropDrawingKeepsAtMostOne(reg: Pairings, drawingId: string, s: Slot)
    requires AtMostOneHolder(reg, s)
    ensures AtMostOneHolder(DropDrawing(reg, drawingId), s)
  {
    var r := DropDrawing(reg, drawingId);
    forall i, j | 0 <= i < |r| && 0 <= j < |r| && r[i].1.playerId == s && r[j].1.playerId == s
      ensures i == j
    {
      assert r[i] in reg && r[j] in reg;
      var i' :| 0 <= i' < |reg| && reg[i'] == r[i];
      var j' :| 0 <= j' < |reg| && reg[j'] == r[j];
      assert r[i] == r[j];
    }
  }

  /** The registry update of a connect from `mac` while `drawingId` is the
      active drawing. A known controller keeps its slot and only changes
      drawing; a new one gets the first free slot after every other pairing
      of that drawing has been removed. */
  function Connect(reg: Pairings, mac: string, drawingId: string): (r: Pairings)
    ensures OrderedMap.Get(r, mac).Some? && OrderedMap.Get(r, mac).value.drawingId == drawingId
    // a known controller: same slot, same place, nothing else touched
    ensures OrderedMap.Get(reg, mac).Some? ==>
              && OrderedMap.Get(r, mac).value.playerId == OrderedMap.Get(reg, mac).value.playerId
              && |r| == |reg|
              && forall k :: k != mac ==> OrderedMap.Get(r, k) == OrderedMap.Get(reg, k)
    // a new controller: player1 unless some pairing already holds it
    ensures OrderedMap.Get(reg, mac).None? ==>
              (OrderedMap.Get(r, mac).value.playerId == Player1 <==> !SlotTaken(reg, Player1))
    // a new controller: the drawing's other pairings are gone, the rest stay
    ensures OrderedMap.Get(reg, mac).None? ==>
              && SoleHolderOf(r, drawingId, mac)
              && forall k :: k != mac ==>
                   OrderedMap.Get(r, k) ==
                     (if OrderedMap.Get(reg, k).Some? && OrderedMap.Get(reg, k).value.drawingId != drawingId
                      then OrderedMap.Get(reg, k) else None)
    // never two holders of player1
    ensures AtMostOneHolder(reg, Player1) ==> AtMostOneHolder(r, Player1)
    // a known controller is updated where it stands; every other entry stays as and where it was
    ensures OrderedMap.Get(reg, mac).Some? ==>
              forall i :: 0 <= i < |reg| ==>
                r[i] == (if reg[i].0 == mac then (mac, Pairing(reg[i].1.playerId, drawingId)) else reg[i])
    // a new controller goes after the surviving pairings, which keep their order
    ensures OrderedMap.Get(reg, mac).None? ==>
              |r| > 0 && r[..|r| - 1] == DropDrawing(reg, drawingId) && r[|r| - 1].0 == mac
  {
    match OrderedMap.Get(reg, mac)
    case Some(existing) =>
      var r := OrderedMap.Set(reg, mac, Pairing(existing.playerId, drawingId));
      assert forall i :: 0 <= i < |reg| && reg[i].0 == mac ==> reg[i].1 == existing;
      r
    case None =>
      var slot := NewControllerSlot(reg);
      var kept := DropDrawing(reg, drawingId);
      var r := OrderedMap.Set(kept, mac, Pairing(slot, drawingId));
      NewControllerFacts(reg, mac, drawingId, r);
      r
  }

  /** The facts `Connect` promises about a controller seen for the first time. */
  lemma NewControllerFacts(reg: Pairings, mac: string, drawingId: string, r: Pairings)
    requires OrderedMap.Get(reg, mac).None?
    requires r == OrderedMap.Set(DropDrawing(reg, drawingId), mac, Pairing(NewControllerSlot(reg), drawingId))
    ensures r == DropDrawing(reg, drawingId) + [(mac, Pairing(NewControllerSlot(reg), drawingId))]
    ensures forall k :: k != mac ==>
              OrderedMap.Get(r, k) ==
                (if OrderedMap.Get(reg, k).Some? && OrderedMap.Get(reg, k).value.drawingId != drawingId
                 then OrderedMap.Get(reg, k) else None)
    ensures SoleHolderOf(r, drawingId, mac)
    ensures AtMostOneHolder(reg, Player1) ==> AtMostOneHolder(r, Player1)
  {
    var slot := NewControllerSlot(reg);
    var kept := DropDrawing(reg, drawingId);
    assert r == kept + [(mac, Pairing(slot, drawingId))];
    AppendedLookups(reg, mac, drawingId, slot, r);
    AppendedSoleHolder(reg, mac, drawingId, slot, r);
    AppendedKeepsPlayer1Unshared(reg, mac, drawingId, r);
  }

  /** Lookups after the survivors of the eviction get `mac` appended. */
  lemma AppendedLookups(reg: Pairings, mac: string, drawingId: string, slot: Slot, r: Pairings)
    requires r == OrderedMap.Set(DropDrawing(reg, drawingId), mac, Pairing(slot, drawingId))
    ensures forall k :: k != mac ==>
              OrderedMap.Get(r, k) ==
                (if OrderedMap.Get(reg, k).Some? && OrderedMap.Get(reg, k).value.drawingId != drawingId
                 then OrderedMap.Get(reg, k) else None)
  {
    forall k | k != mac
      ensures OrderedMap.Get(r, k) ==
                (if OrderedMap.Get(reg, k).Some? && OrderedMap.Get(reg, k).value.drawingId != drawingId
                 then OrderedMap.Get(reg, k) else None)
    {
      OrderedMap.GetFilter(reg, (p: Pairing) => p.drawingId != drawingId, k);
    }
  }

  /** After the eviction, the appended `mac` is the drawing's only holder. */
  lemma AppendedSoleHolder(reg: Pairings, mac: string, drawingId: string, slot: Slot, r: seq<(string, Pairing)>)
    requires r == DropDrawing(reg, drawingId) + [(mac, Pairing(slot, drawingId))]
    ensures SoleHolderOf(r, drawingId, mac)
  {
    forall i | 0 <= i < |r| && r[i].1.drawingId == drawingId ensures r[i].0 == mac {
    }
  }

  /** The appended controller takes player 1 only when nobody held it, so
      player 1 stays unshared. */
  lemma AppendedKeepsPlayer1Unshared(reg: Pairings, mac: string, drawingId: string, r: seq<(string, Pairing)>)
    requires r == DropDrawing(reg, drawingId) + [(mac, Pairing(NewControllerSlot(reg), drawingId))]
    ensures AtMostOneHolder(reg, Player1) ==> AtMostOneHolder(r, Player1)
  {
    var kept := DropDrawing(reg, drawingId);
    if AtMostOneHolder(reg, Player1) {
      DropDrawingKeepsAtMostOne(reg, drawingId, Player1);
      if NewControllerSlot(reg) == Player1 {
        forall i | 0 <= i < |kept| ensures kept[i].1.playerId != Player1 {
          assert kept[i] in reg;
        }
      }
    }
  }

  /** The payload's connect request is actionable: it is a connect, a
      drawing is selected and the payload names a MAC address. */
  predicate PairsOn(st: PlayState, payload: Controller.ControllerPayload)
  {
    payload.event == Some(Controller.Connect) && st.active.Some? && ResolveMacAddress(payload).Some?
  }

  /** `handlePayload`. Only an actionable connect changes anything: it
      pairs the controller with the active drawing, puts that drawing at the
      origin and clears the selection. */
  function HandlePayload(st: PlayState, payload: Controller.ControllerPayload): (r: PlayState)
    ensures !PairsOn(st, payload) <==> r == st
    ensures r.drawings == st.drawings
    ensures PairsOn(st, payload) ==>
              && r.active.None?
              && r.pairings == Connect(st.pairings, Text.ToUpper(payload.id.value), st.active.value.id)
              && r.positions == st.positions[st.active.value.id := Position(0, 0)]
    ensures AtMostOneHolder(st.pairings, Player1) ==> AtMostOneHolder(r.pairings, Player1)
  {
    if payload.event != Some(Controller.Connect) then st
    else if st.active.None? then st
    else match ResolveMacAddress(payload)
      case None => st
      case Some(mac) =>
        var drawingId := st.active.value.id;
        st.(pairings := Connect(st.pairings, mac, drawingId),
            positions := st.positions[drawingId := Position(0, 0)],
            active := None)
  }

  predicate Listed(drawings: seq<Drawing>, id: string)
  {
    exists i :: 0 <= i < |drawings| && drawings[i].id == id
  }

  /** `handleSelect`: `item` becomes the active drawing; a different drawing
      that was active is put back at the front of the list unless a drawing
      with its id is already listed. */
  function HandleSelect(st: PlayState, item: Drawing): (r: PlayState)
    ensures r.active == Some(item)
    ensures r.pairings == st.pairings && r.positions == st.positions
    ensures r.drawings == st.drawings || (|r.drawings| > 0 && r.drawings[1..] == st.drawings)
    ensures forall d :: d in st.drawings ==> d in r.drawings
    ensures st.active.Some? && st.active.value.id != item.id ==> Listed(r.drawings, st.active.value.id)
    ensures r.drawings != st.drawings <==>
              st.active.Some? && st.active.value.id != item.id && !Listed(st.drawings, st.active.value.id)
    ensures r.drawings != st.drawings ==> r.drawings[0] == st.active.value
  {
    var drawings :=
      if st.active.Some? && st.active.value.id != item.id && !Listed(st.drawings, st.active.value.id)
      then [st.active.value] + st.drawings
      else st.drawings;
    assert st.active.Some? && st.active.value.id != item.id ==> Listed(drawings, st.active.value.id) by {
      if st.active.Some? && st.active.value.id != item.id && !Listed(st.drawings, st.active.value.id) {
        assert drawings[0].id == st.active.value.id;
      }
    }
    st.(drawings := drawings, active := Some(item))
  }

  /** Clicking the already selected drawing again changes nothing. */
  lemma SelectIdempotent(st: PlayState, item: Drawing)
    ensures HandleSelect(HandleSelect(st, item), item) == HandleSelect(st, item)
  {
  }

  /** Selecting one drawing after another and dropping the selection
      leaves the first drawing listed and nothing selected. */
  lemma SelectSwitchKeepsPrevious(st: PlayState, a: Drawing, b: Drawing)
    requires a.id != b.id
    ensures var r := RunEvents(st, [Select(a), Select(b), Release]);
            && r.active.None? && Listed(r.drawings, a.id)
            && r.pairings == st.pairings && r.positions == st.positions
  {
    var s1 := HandleSelect(st, a);
    var s2 := HandleSelect(s1, b);
    assert RunEvents(st, [Select(a), Select(b), Release]) == RunEvents(s1, [Select(b), Release]) by {
      assert [Select(a), Select(b), Release][1..] == [Select(b), Release];
    }
    assert RunEvents(s1, [Select(b), Release]) == RunEvents(s2, [Release]) by {
      assert [Select(b), Release][1..] == [Release];
    }
    assert RunEvents(s2, [Release]) == s2.(active := None) by {
      assert [Release][1..] == [];
    }
  }

  /** What the play screen reacts to. */
  datatype PlayEvent =
    | Select(item: Drawing)      // a drawing is clicked in the grid
    | Release                    // `handleRelease`: the selection is dropped
    | Message(payload: Controller.ControllerPayload)

  function Apply(st: PlayState, e: PlayEvent): PlayState
  {
    match e
    case Select(item) => HandleSelect(st, item)
    case Release => st.(active := None)
    case Message(payload) => HandlePayload(st, payload)
  }

  function RunEvents(st: PlayState, es: seq<PlayEvent>): PlayState
    decreases |es|
  {
    if |es| == 0 then st else RunEvents(Apply(st, es[0]), es[1..])
  }

  /** However selections, releases and messages interleave, no two
      controllers ever hold player 1. */
  lemma {:induction false} Player1NeverShared(st: PlayState, es: seq<PlayEvent>)
    requires AtMostOneHolder(st.pairings, Player1)
    ensures AtMostOneHolder(RunEvents(st, es).pairings, Player1)
    decreases |es|
  {
    if |es| > 0 {
      Player1NeverShared(Apply(st, es[0]), es[1..]);
    }
  }

  /** Selections, releases and messages other than connects never touch the
      pairings. */
  lemma {:induction false} OnlyConnectsPair(st: PlayState, es: seq<PlayEvent>)
    requires forall i :: 0 <= i < |es| ==> es[i].Message? ==> es[i].payload.event != Some(Controller.Connect)
    ensures RunEvents(st, es).pairings == st.pairings
    decreases |es|
  {
    if |es| > 0 {
      OnlyConnectsPair(Apply(st, es[0]), es[1..]);
    }
  }

  /* ---------- Views derived from the pairings ---------- */

  /** Pairing `i` is the first to hold slot `s`. */
  predicate IsFirstHolder(reg: seq<(string, Pairing)>, s: Slot, i: int)
  {
    0 <= i < |reg| && reg[i].1.playerId == s && forall j :: 0 <= j < i ==> reg[j].1.playerId != s
  }

  /** `player1Drawing` / `player2Drawing`: the listed drawing of the first
      pairing holding `s`. Later holders of the same slot are not consulted,
      even when the first one's drawing is not listed. */
  function PlayerDrawing(reg: Pairings, drawings: seq<Drawing>, s: Slot): (r: Option<Drawing>)
    ensures !SlotTaken(reg, s) ==> r.None?
    ensures r.Some? ==>
              exists i :: IsFirstHolder(reg, s, i) && reg[i].1.drawingId == r.value.id
    ensures r.Some? ==>
              exists k :: 0 <= k < |drawings| && drawings[k] == r.value
                          && forall j :: 0 <= j < k ==> drawings[j].id != r.value.id
    ensures forall i :: IsFirstHolder(reg, s, i) ==> (r.Some? <==> Listed(drawings, reg[i].1.drawingId))
  {
    var i := Seqs.FirstIndex(reg, (e: (string, Pairing)) => e.1.playerId == s);
    if i < 0 then None
    else
      var id := reg[i].1.drawingId;
      var k := Seqs.FirstIndex(drawings, (d: Drawing) => d.id == id);
      assert forall i' :: IsFirstHolder(reg, s, i') ==> i' == i;
      if k < 0 then None else Some(drawings[k])
  }

  /** A slot's drawing depends only on the drawing id of its first holder. */
  lemma PlayerDrawingByFirstHolder(reg: Pairings, reg': Pairings, drawings: seq<Drawing>, s: Slot, i: int, i': int)
    requires IsFirstHolder(reg, s, i) && IsFirstHolder(reg', s, i')
    requires reg[i].1.drawingId == reg'[i'].1.drawingId
    ensures PlayerDrawing(reg, drawings, s) == PlayerDrawing(reg', drawings, s)
  {
    var r, r' := PlayerDrawing(reg, drawings, s), PlayerDrawing(reg', drawings, s);
    if r.Some? && r'.Some? {
      var k :| 0 <= k < |drawings| && drawings[k] == r.value && forall j :: 0 <= j < k ==> drawings[j].id != r.value.id;
      var k' :| 0 <= k' < |drawings| && drawings[k'] == r'.value && forall j :: 0 <= j < k' ==> drawings[j].id != r'.value.id;
      var j :| IsFirstHolder(reg, s, j) && reg[j].1.drawingId == r.value.id;
      var j' :| IsFirstHolder(reg', s, j') && reg'[j'].1.drawingId == r'.value.id;
      assert j == i && j' == i';
      assert k == k';
    }
  }

  /** Removing a drawing's pairings keeps a slot's first holder first,
      provided it does not hold that drawing. */
  lemma DropDrawingKeepsFirstHolder(reg: Pairings, drawingId: string, s: Slot, i: int) returns (n: int)
    requires IsFirstHolder(reg, s, i) && reg[i].1.drawingId != drawingId
    ensures IsFirstHolder(DropDrawing(reg, drawingId), s, n) && DropDrawing(reg, drawingId)[n] == reg[i]
  {
    var keep := (p: Pairing) => p.drawingId != drawingId;
    var kept := DropDrawing(reg, drawingId);
    var before, from := reg[..i], reg[i..];
    assert reg == before + from;
    OrderedMap.FilterAppend(before, from, keep);
    assert from == [reg[i]] + from[1..];
    OrderedMap.FilterAppend([reg[i]], from[1..], keep);
    assert OrderedMap.Filter([reg[i]], keep) == [reg[i]] by {
      assert [reg[i]][1..] == [];
    }
    var f := OrderedMap.Filter(before, keep);
    assert kept == f + ([reg[i]] + OrderedMap.Filter(from[1..], keep));
    n := |f|;
    assert kept[n] == reg[i];
    forall a | 0 <= a < n ensures kept[a].1.playerId != s {
      assert kept[a] == f[a];
      assert f[a] in before;
    }
  }

  /** Pairing a new controller leaves a slot's drawing alone as long as the
      first holder of that slot is not evicted: the survivors keep their
      order and the newcomer is placed after them. */
  lemma NewControllerKeepsPlayerDrawing(reg: Pairings, mac: string, drawingId: string,
                                        drawings: seq<Drawing>, s: Slot, i: int)
    requires OrderedMap.Get(reg, mac).None?
    requires IsFirstHolder(reg, s, i) && reg[i].1.drawingId != drawingId
    ensures PlayerDrawing(Connect(reg, mac, drawingId), drawings, s) == PlayerDrawing(reg, drawings, s)
  {
    var r := Connect(reg, mac, drawingId);
    var kept := DropDrawing(reg, drawingId);
    var n := DropDrawingKeepsFirstHolder(reg, drawingId, s, i);
    assert r[..|r| - 1] == kept;
    assert r[n] == kept[n];
    forall a | 0 <= a < n ensures r[a].1.playerId != s {
      assert r[a] == kept[a];
    }
    PlayerDrawingByFirstHolder(r, reg, drawings, s, n, i);
  }

  /** What the stage shows for one paired drawing. */
  datatype StageEntry = StageEntry(position: Position, playerId: Slot)

  function PositionOf(positions: map<string, Position>, drawingId: string): Position
  {
    if drawingId in positions then positions[drawingId] else Position(0, 0)
  }

  function PairedDrawingIds(reg: seq<(string, Pairing)>): set<string>
  {
    set i | 0 <= i < |reg| :: reg[i].1.drawingId
  }

  /** The last pairing of `reg` that references `d` is pairing `i`. */
  predicate IsLastReference(reg: seq<(string, Pairing)>, d: string, i: int)
  {
    && 0 <= i < |reg| && reg[i].1.drawingId == d
    && forall j :: i < j < |reg| ==> reg[j].1.drawingId != d
  }

  /** `stagePairings`: one entry per paired drawing, with its stored
      position (the origin when none is stored) and the slot of the last
      pairing that references it. */
  function StagePairings(reg: seq<(string, Pairing)>, positions: map<string, Position>): (r: map<string, StageEntry>)
    ensures r.Keys == PairedDrawingIds(reg)
    ensures forall d :: d in r ==> r[d].position == PositionOf(positions, d)
    ensures forall d :: d in r ==> exists i :: IsLastReference(reg, d, i) && r[d].playerId == reg[i].1.playerId
  {
    if |reg| == 0 then map[]
    else
      var init := reg[..|reg| - 1];
      var last := reg[|reg| - 1].1;
      var earlier := StagePairings(init, positions);
      var r := earlier[last.drawingId := StageEntry(PositionOf(positions, last.drawingId), last.playerId)];
      StageStep(reg, positions, earlier, r);
      r
  }

  lemma PairedIdsStep(reg: seq<(string, Pairing)>)
    requires |reg| > 0
    ensures PairedDrawingIds(reg) == PairedDrawingIds(reg[..|reg| - 1]) + {reg[|reg| - 1].1.drawingId}
  {
    var init := reg[..|reg| - 1];
    forall d | d in PairedDrawingIds(reg) ensures d in PairedDrawingIds(init) + {reg[|reg| - 1].1.drawingId} {
      var i :| 0 <= i < |reg| && reg[i].1.drawingId == d;
      if i < |reg| - 1 { assert init[i] == reg[i]; }
    }
    forall d | d in PairedDrawingIds(init) ensures d in PairedDrawingIds(reg) {
      var i :| 0 <= i < |init| && init[i].1.drawingId == d;
      assert reg[i] == init[i];
    }
  }

  /** The induction step of `StagePairings`: adding the last pairing. */
  lemma StageStep(reg: seq<(string, Pairing)>, positions: map<string, Position>,
                  earlier: map<string, StageEntry>, r: map<string, StageEntry>)
    requires |reg| > 0
    requires earlier.Keys == PairedDrawingIds(reg[..|reg| - 1])
    requires forall d :: d in earlier ==> earlier[d].position == PositionOf(positions, d)
    requires forall d :: d in earlier ==>
               exists i :: IsLastReference(reg[..|reg| - 1], d, i) && earlier[d].playerId == reg[i].1.playerId
    requires r == earlier[reg[|reg| - 1].1.drawingId :=
                          StageEntry(PositionOf(positions, reg[|reg| - 1].1.drawingId), reg[|reg| - 1].1.playerId)]
    ensures r.Keys == PairedDrawingIds(reg)
    ensures forall d :: d in r ==> r[d].position == PositionOf(positions, d)
    ensures forall d :: d in r ==> exists i :: IsLastReference(reg, d, i) && r[d].playerId == reg[i].1.playerId
  {
    PairedIdsStep(reg);
    forall d | d in r ensures exists i :: IsLastReference(reg, d, i) && r[d].playerId == reg[i].1.playerId {
      LastReferenceStep(reg, positions, earlier, r, d);
    }
  }

  lemma LastReferenceStep(reg: seq<(string, Pairing)>, positions: map<string, Position>,
                          earlier: map<string, StageEntry>, r: map<string, StageEntry>, d: string)
    requires |reg| > 0
    requires forall d :: d in earlier ==>
               exists i :: IsLastReference(reg[..|reg| - 1], d, i) && earlier[d].playerId == reg[i].1.playerId
    requires r == earlier[reg[|reg| - 1].1.drawingId :=
                          StageEntry(PositionOf(positions, reg[|reg| - 1].1.drawingId), reg[|reg| - 1].1.playerId)]
    requires d in r
    ensures exists i :: IsLastReference(reg, d, i) && r[d].playerId == reg[i].1.playerId
  {
    var n := |reg| - 1;
    if d == reg[n].1.drawingId {
      assert IsLastReference(reg, d, n);
    } else {
      assert d in earlier;
      var i :| IsLastReference(reg[..n], d, i) && earlier[d].playerId == reg[i].1.playerId;
      assert reg[..n][i] == reg[i];
      assert IsLastReference(reg, d, i);
    }
  }

  /* ---------- Keyboard substitutes and worked cases ---------- */

  /** The payload the screen's keydown handler feeds to `handlePayload` for
      a key: a connect without an id for "1" and "2", a player-1 button for
      the arrow keys, nothing for any other key. */
  function DebugKeyPayload(key: string): (p: Option<Controller.ControllerPayload>)
    ensures p.Some? <==> key in ["1", "2", "ArrowUp", "ArrowDown", "ArrowLeft", "ArrowRight"]
    // no substitute carries a controller id or any movement
    ensures p.Some? ==> p.value.id.None? && p.value.dx.None? && p.value.dy.None? && p.value.step.None?
    // "1" and "2" connect as that player, without a button
    ensures key == "1" || key == "2" ==>
              && p.value.event == Some(Controller.Connect) && p.value.button.None?
              && p.value.playerId == Some(if key == "1" then "player1" else "player2")
    // an arrow is player 1 pressing the button its raw text names
    ensures key in ["ArrowUp", "ArrowDown", "ArrowLeft", "ArrowRight"] ==>
              && p.value.event.None? && p.value.playerId == Some("player1")
              && p.value.button == Some(p.value.raw)
              && p.value.raw in ["up", "down", "left", "right"]
  {
    if key == "1" || key == "2" then
      var player := if key == "1" then "player1" else "player2";
      Some(Controller.ControllerPayload(
        "{\"event\":\"connect\",\"playerId\":\"" + player + "\"}",
        Some(player), None, None, None, None, Some(Controller.Connect), None))
    else if key in ["ArrowUp", "ArrowDown", "ArrowLeft", "ArrowRight"] then
      var button := if key == "ArrowUp" then "up" else if key == "ArrowDown" then "down"
                    else if key == "ArrowLeft" then "left" else "right";
      Some(Controller.ControllerPayload(button, Some("player1"), None, None, Some(button), None, None, None))
    else None
  }

  /** No key of the keyboard pairs anything: the connect substitutes carry
      no id, and the arrow substitutes are no connects. */
  lemma DebugKeysNeverPair(st: PlayState, key: string)
    requires DebugKeyPayload(key).Some?
    ensures HandlePayload(st, DebugKeyPayload(key).value) == st
  {
  }

  /** Each arrow substitute is exactly what the normaliser makes of its
      bare word arriving on any topic whose last segment is "player1". */
  lemma ArrowKeyMatchesNormalised(key: string, topic: string)
    requires key in ["ArrowUp", "ArrowDown", "ArrowLeft", "ArrowRight"]
    requires Text.LastSegment(topic, '/') == "player1"
    ensures DebugKeyPayload(key).Some?
    ensures DebugKeyPayload(key) ==
            Some(Controller.Normalize(DebugKeyPayload(key).value.raw, Some(topic), Controller.Failed))
  {
    var word := ArrowWord(key);
    Controller.BareWordPayload(word, topic);
  }

  /** The word an arrow key stands for, and the substitute built from it. */
  lemma ArrowWord(key: string) returns (word: string)
    requires key in ["ArrowUp", "ArrowDown", "ArrowLeft", "ArrowRight"]
    ensures word in ["up", "down", "left", "right"]
    ensures DebugKeyPayload(key) ==
            Some(Controller.ControllerPayload(word, Some("player1"), None, None, Some(word), None, None, None))
    ensures |word| > 0 && !Text.IsJsWhitespace(word[0]) && !Text.IsJsWhitespace(word[|word| - 1])
    ensures forall i :: 0 <= i < |word| ==> !Text.IsUpperAscii(word[i])
  {
    assert key != "1" && key != "2";
    word := DebugKeyPayload(key).value.raw;
  }

  /** The controllers' own player-1 topic is such a topic. */
  lemma PlayerOneTopicSegment()
    ensures Text.LastSegment("yokohama/hackathon/running/player1", '/') == "player1"
  {
    Text.LastSegmentAfterSeparator("yokohama/hackathon/running", '/', "player1");
    assert "yokohama/hackathon/running" + ['/'] + "player1" == "yokohama/hackathon/running/player1";
  }

  /** The connect message a controller sends: its event and its id survive
      normalisation. */
  lemma ConnectMessageNormalised()
    ensures var payload := Controller.Normalize(
                "{\"event\":\"connect\",\"id\":\"aa:bb:cc:dd:ee:10\"}",
                Some("dorosupi/controller"),
                Controller.Object(map["event" := Controller.JString("connect"),
                                      "id" := Controller.JString("aa:bb:cc:dd:ee:10")]));
            payload.event == Some(Controller.Connect) && payload.id == Some("aa:bb:cc:dd:ee:10")
  {
  }

  /** The first controller to connect while drawing "d1" is selected gets
      player 1 with that drawing, and the selection is cleared. */
  lemma FirstConnectTakesPlayer1(url: string, payload: Controller.ControllerPayload)
    requires payload.event == Some(Controller.Connect) && payload.id == Some("aa:bb:cc:dd:ee:10")
    ensures var st := PlayState([], Some(Drawing("d1", url)), [], map[]);
            var r := HandlePayload(st, payload);
            && r.pairings == [("AA:BB:CC:DD:EE:10", Pairing(Player1, "d1"))]
            && r.active.None?
            && r.positions == map["d1" := Position(0, 0)]
  {
    ExampleMacResolves(payload);
    FirstPairingOfEmpty("AA:BB:CC:DD:EE:10", "d1");
  }

  lemma ExampleMacResolves(payload: Controller.ControllerPayload)
    requires payload.id == Some("aa:bb:cc:dd:ee:10")
    ensures ResolveMacAddress(payload) == Some("AA:BB:CC:DD:EE:10")
  {
    assert ':' in "aa:bb:cc:dd:ee:10" by { assert "aa:bb:cc:dd:ee:10"[2] == ':'; }
    assert Text.ToUpper("aa:bb:cc:dd:ee:10") == "AA:BB:CC:DD:EE:10";
  }

  /** On an empty registry any controller becomes the one pairing, as player 1. */
  lemma FirstPairingOfEmpty(mac: string, drawingId: string)
    ensures Connect([], mac, drawingId) == [(mac, Pairing(Player1, drawingId))]
  {
    var empty: Pairings := [];
    assert OrderedMap.Get(empty, mac).None? && !OrderedMap.HasKey(empty, mac);
    assert NewControllerSlot(empty) == Player1;
    assert |DropDrawing(empty, drawingId)| == 0;
  }

  /** Binding a paired drawing to a new controller evicts the old pairing. */
  lemma RebindingDrawingEvicts()
    ensures Connect([("A:1", Pairing(Player1, "d"))], "B:2", "d") == [("B:2", Pairing(Player2, "d"))]
  {
    var reg: Pairings := [("A:1", Pairing(Player1, "d"))];
    assert reg[0].1.playerId == Player1;
    var r := Connect(reg, "B:2", "d");
    assert OrderedMap.Get(reg, "B:2").None?;
  }

  /** A third controller is not refused: it also becomes player 2, so two
      pairings hold that slot. */
  lemma ThirdControllerAlsoPlayer2()
    ensures var reg: Pairings := [("A:1", Pairing(Player1, "d1")), ("B:2", Pairing(Player2, "d2"))];
            Connect(reg, "C:3", "d3") ==
              reg + [("C:3", Pairing(Player2, "d3"))]
  {
    var reg: Pairings := [("A:1", Pairing(Player1, "d1")), ("B:2", Pairing(Player2, "d2"))];
    assert reg[0].1.playerId == Player1;
    assert DropDrawing(reg, "d3") == reg;
  }

  /** A known controller that reconnects with another pairing's drawing
      evicts nothing, so two pairings then share the drawing. */
  lemma ReconnectCanShareDrawing()
    ensures var reg: Pairings := [("A:1", Pairing(Player1, "d1")), ("B:2", Pairing(Player2, "d2"))];
            Connect(reg, "B:2", "d1") ==
              [("A:1", Pairing(Player1, "d1")), ("B:2", Pairing(Player2, "d1"))]
  {
    var reg: Pairings := [("A:1", Pairing(Player1, "d1")), ("B:2", Pairing(Player2, "d2"))];
    assert reg[1].0 == "B:2";
  }

  /** Whether player 1 is taken is decided before the eviction: a new
      controller taking player 1's drawing becomes player 2 and leaves
      player 1 unheld. */
  lemma EvictedPlayer1NotReassigned()
    ensures Connect([("A:1", Pairing(Player1, "d"))], "C:3", "d") == [("C:3", Pairing(Player2, "d"))]
    ensures !SlotTaken(Connect([("A:1", Pairing(Player1, "d"))], "C:3", "d"), Player1)
  {
    var reg: Pairings := [("A:1", Pairing(Player1, "d"))];
    assert reg[0].1.playerId == Player1;
    assert OrderedMap.Get(reg, "C:3").None?;
    var r := Connect(reg, "C:3", "d");
    assert r == [("C:3", Pairing(Player2, "d"))];
    assert r[0].1.playerId == Player2;
  }

  /** Resending the same connect with the same drawing changes nothing. */
  lemma ConnectIdempotent(reg: Pairings, mac: string, drawingId: string)
    ensures Connect(Connect(reg, mac, drawingId), mac, drawingId) == Connect(reg, mac, drawingId)
  {
    var r := Connect(reg, mac, drawingId);
    var i :| 0 <= i < |r| && r[i].0 == mac;
    assert r[i].1 == OrderedMap.Get(r, mac).value;
    var again := Connect(r, mac, drawingId);
    assert |again| == |r|;
    forall j | 0 <= j < |r| ensures again[j] == r[j] {
    }
  }
}

=== FILE: race.dfy ===
/** The two-player running race: a countdown, edge-triggered key presses
    that each move a runner two steps and make it wobble once, a finish
    line at 100 and a "play again" reset. The screen's state and its two
    refs (which keys are held, which key last moved each runner) are one
    immutable record; every timer tick, key event and button press is a
    step function over it. */
module Race {
  import opened Wrappers

  const WinningPosition: int := 100
  const MoveAmount: int := 2
  const CountdownStart: int := 3

  datatype Phase = Ready | Racing | Finish

  datatype Player = One | Two

  /** One runner: its position on the track, how often it has wobbled,
      whether its key is held down, and whether that key is recorded as
      the one that last moved it. */
  datatype Lane = Lane(position: int, wobble: int, held: bool, marked: bool)

  datatype RaceState = RaceState(phase: Phase, lane1: Lane, lane2: Lane, winner: Option<Player>, countdown: int)

  datatype RaceEvent = Tick | KeyDown(key: string) | KeyUp(key: string) | PlayAgain

  const IdleLane := Lane(0, 0, false, false)

  /* ---------- Reachable states ---------- */

  predicate LaneOk(l: Lane)
  {
    && 0 <= l.position <= WinningPosition
    && l.position == MoveAmount * l.wobble
    && l.held == l.marked
  }

  /** What every reachable state satisfies: runners between start and
      finish, two steps per wobble, a winner exactly in the finish phase
      and only on the finish line, and untouched runners while counting
      down. */
  predicate Inv(s: RaceState)
  {
    && LaneOk(s.lane1) && LaneOk(s.lane2)
    && (s.winner.Some? <==> s.phase == Finish)
    && (s.winner == Some(One) ==> s.lane1.position == WinningPosition && s.lane2.position < WinningPosition)
    && (s.winner == Some(Two) ==> s.lane2.position == WinningPosition && s.lane1.position < WinningPosition)
    && (s.phase == Racing ==> s.lane1.position < WinningPosition && s.lane2.position < WinningPosition)
    && (s.phase == Ready ==> 1 <= s.countdown <= CountdownStart && s.lane1 == IdleLane && s.lane2 == IdleLane)
    && (s.phase != Ready ==> s.countdown == 0)
  }

  /** The screen as it first appears. */
  function Initial(): (s: RaceState)
    ensures Inv(s)
    ensures s.phase == Ready && s.winner.None?
  {
    RaceState(Ready, IdleLane, IdleLane, None, CountdownStart)
  }

  /* ---------- Lanes ---------- */

  function LaneOf(s: RaceState, p: Player): Lane
  {
    if p == One then s.lane1 else s.lane2
  }

  function WithLane(s: RaceState, p: Player, l: Lane): (r: RaceState)
    ensures LaneOf(r, p) == l && LaneOf(r, Other(p)) == LaneOf(s, Other(p))
    ensures r.phase == s.phase && r.winner == s.winner && r.countdown == s.countdown
  {
    if p == One then s.(lane1 := l) else s.(lane2 := l)
  }

  function Other(p: Player): Player
  {
    if p == One then Two else One
  }

  /** The key that drives a runner: "1" for player 1, "2" for player 2. */
  function PlayerOfKey(key: string): (p: Option<Player>)
    ensures p == Some(One) <==> key == "1"
    ensures p == Some(Two) <==> key == "2"
  {
    if key == "1" then Some(One) else if key == "2" then Some(Two) else None
  }

  /** The key listeners are mounted only during the race and only while
      nobody has won. */
  predicate Accepting(s: RaceState)
  {
    s.phase == Racing && s.winner.None?
  }

  /* ---------- Events ---------- */

  /** One second of the countdown: only counted in the ready phase; the
      tick that finds one or less left starts the race. */
  function OnTick(s: RaceState): (r: RaceState)
    ensures s.phase != Ready ==> r == s
    ensures s.phase == Ready ==> r.lane1 == s.lane1 && r.lane2 == s.lane2 && r.winner == s.winner
    ensures s.phase == Ready ==> (r.phase == Racing <==> s.countdown <= 1)
    ensures s.phase == Ready && s.countdown > 1 ==> r.phase == Ready
    ensures s.phase == Ready ==> r.countdown == if s.countdown <= 1 then 0 else s.countdown - 1
  {
    if s.phase != Ready then s
    else if s.countdown <= 1 then s.(countdown := 0, phase := Racing)
    else s.(countdown := s.countdown - 1)
  }

  /** A runner's move: two steps capped at the finish line and one wobble;
      reaching the line names the runner winner, unless someone already
      won, and ends the race. */
  function Impulse(s: RaceState, p: Player): (r: RaceState)
    ensures LaneOf(r, Other(p)) == LaneOf(s, Other(p))
    ensures LaneOf(r, p).position == (if LaneOf(s, p).position + MoveAmount < WinningPosition
                                      then LaneOf(s, p).position + MoveAmount else WinningPosition)
    ensures LaneOf(r, p).wobble == LaneOf(s, p).wobble + 1
    ensures LaneOf(r, p).held == LaneOf(s, p).held && LaneOf(r, p).marked
    ensures r.countdown == s.countdown
    // reaching the line with nobody ahead names this runner winner and ends the race
    ensures s.winner.None? ==>
              (LaneOf(r, p).position >= WinningPosition <==> r.winner == Some(p) && r.phase == Finish)
    // short of the line, or with a winner already named, phase and winner stay
    ensures LaneOf(r, p).position < WinningPosition || s.winner.Some? ==>
              r.phase == s.phase && r.winner == s.winner
  {
    var l := LaneOf(s, p);
    var pos := if l.position + MoveAmount < WinningPosition then l.position + MoveAmount else WinningPosition;
    var moved := WithLane(s, p, l.(position := pos, wobble := l.wobble + 1, marked := true));
    if pos >= WinningPosition && s.winner.None? then moved.(winner := Some(p), phase := Finish)
    else moved
  }

  /** A key going down for a runner: ignored while the key is held; moves
      the runner unless the key is still recorded as its last one; in
      either case the key is then held. */
  function Press(s: RaceState, p: Player): (r: RaceState)
    ensures LaneOf(s, p).held ==> r == s
    ensures LaneOf(r, Other(p)) == LaneOf(s, Other(p))
    ensures LaneOf(r, p).held && r.countdown == s.countdown
    // a key still marked as the last one only becomes held again
    ensures !LaneOf(s, p).held && LaneOf(s, p).marked ==> r == WithLane(s, p, LaneOf(s, p).(held := true))
    // a fresh press is an impulse
    ensures !LaneOf(s, p).held && !LaneOf(s, p).marked ==>
              && LaneOf(r, p).position == (if LaneOf(s, p).position + MoveAmount < WinningPosition
                                           then LaneOf(s, p).position + MoveAmount else WinningPosition)
              && LaneOf(r, p).wobble == LaneOf(s, p).wobble + 1
              && LaneOf(r, p).marked
              && (s.winner.None? ==>
                    (LaneOf(r, p).position >= WinningPosition <==> r.winner == Some(p) && r.phase == Finish))
              && (LaneOf(r, p).position < WinningPosition || s.winner.Some? ==>
                    r.phase == s.phase && r.winner == s.winner)
  {
    var l := LaneOf(s, p);
    if l.held then s
    else
      var moved := if !l.marked then Impulse(s, p) else s;
      WithLane(moved, p, LaneOf(moved, p).(held := true))
  }

  function OnKeyDown(s: RaceState, key: string): (r: RaceState)
    ensures !Accepting(s) || PlayerOfKey(key).None? ==> r == s
    // a key moves only its own runner, and never backwards
    ensures PlayerOfKey(key).Some? ==>
              LaneOf(r, Other(PlayerOfKey(key).value)) == LaneOf(s, Other(PlayerOfKey(key).value))
    ensures s.lane1.position <= WinningPosition ==> s.lane1.position <= r.lane1.position <= WinningPosition
    ensures s.lane2.position <= WinningPosition ==> s.lane2.position <= r.lane2.position <= WinningPosition
    // a fresh press of a runner's key moves it two steps, capped at the line
    ensures Accepting(s) && PlayerOfKey(key).Some? &&
            !LaneOf(s, PlayerOfKey(key).value).held && !LaneOf(s, PlayerOfKey(key).value).marked ==>
              var p := PlayerOfKey(key).value;
              && LaneOf(r, p).position == (if LaneOf(s, p).position + MoveAmount < WinningPosition
                                           then LaneOf(s, p).position + MoveAmount else WinningPosition)
              && LaneOf(r, p).wobble == LaneOf(s, p).wobble + 1
              && LaneOf(r, p).held && LaneOf(r, p).marked
              // the press that reaches the line wins the race; any other leaves phase and winner
              && (LaneOf(r, p).position == WinningPosition <==> r.winner == Some(p) && r.phase == Finish)
              && (LaneOf(r, p).position < WinningPosition ==> r.phase == s.phase && r.winner == s.winner)
    // a press of a key still marked as the last one only holds it
    ensures Accepting(s) && PlayerOfKey(key).Some? &&
            !LaneOf(s, PlayerOfKey(key).value).held && LaneOf(s, PlayerOfKey(key).value).marked ==>
              r == WithLane(s, PlayerOfKey(key).value, LaneOf(s, PlayerOfKey(key).value).(held := true))
    // a press of a held key changes nothing
    ensures PlayerOfKey(key).Some? && LaneOf(s, PlayerOfKey(key).value).held ==> r == s
  {
    if !Accepting(s) then s
    else match PlayerOfKey(key)
      case None => s
      case Some(p) => Press(s, p)
  }

  /** A key coming up forgets that it is held and that it last moved its
      runner, which re-arms it. */
  function OnKeyUp(s: RaceState, key: string): (r: RaceState)
    ensures !Accepting(s) || PlayerOfKey(key).None? ==> r == s
    ensures Accepting(s) && PlayerOfKey(key).Some? ==>
              var p := PlayerOfKey(key).value;
              && !LaneOf(r, p).held && !LaneOf(r, p).marked
              && LaneOf(r, p).position == LaneOf(s, p).position
              && LaneOf(r, p).wobble == LaneOf(s, p).wobble
              && LaneOf(r, Other(p)) == LaneOf(s, Other(p))
              && r.phase == s.phase && r.winner == s.winner && r.countdown == s.countdown
  {
    if !Accepting(s) then s
    else match PlayerOfKey(key)
      case None => s
      case Some(p) => WithLane(s, p, LaneOf(s, p).(held := false, marked := false))
  }

  /** The "play again" button, shown only once the race is over, puts
      everything back as it first was. */
  function OnPlayAgain(s: RaceState): (r: RaceState)
    ensures s.phase != Finish ==> r == s
    ensures s.phase == Finish ==> r.lane1 == IdleLane && r.lane2 == IdleLane
    ensures s.phase == Finish ==> r.phase == Ready && r.winner.None? && r.countdown == CountdownStart
  {
    if s.phase == Finish then Initial() else s
  }

  function Step(s: RaceState, e: RaceEvent): RaceState
  {
    match e
    case Tick => OnTick(s)
    case KeyDown(k) => OnKeyDown(s, k)
    case KeyUp(k) => OnKeyUp(s, k)
    case PlayAgain => OnPlayAgain(s)
  }

  function Run(s: RaceState, es: seq<RaceEvent>): RaceState
    decreases |es|
  {
    if |es| == 0 then s else Run(Step(s, es[0]), es[1..])
  }

  /* ---------- Invariant ---------- */

  lemma PressPreservesInv(s: RaceState, p: Player)
    requires Inv(s) && Accepting(s)
    ensures Inv(Press(s, p))
  {
  }

  /** Every event keeps the state reachable. */
  lemma StepPreservesInv(s: RaceState, e: RaceEvent)
    requires Inv(s)
    ensures Inv(Step(s, e))
  {
    match e
    case KeyDown(k) =>
      if Accepting(s) && PlayerOfKey(k).Some? {
        PressPreservesInv(s, PlayerOfKey(k).value);
      }
    case _ =>
  }

  lemma {:induction false} RunPreservesInv(s: RaceState, es: seq<RaceEvent>)
    requires Inv(s)
    ensures Inv(Run(s, es))
    decreases |es|
  {
    if |es| > 0 {
      StepPreservesInv(s, es[0]);
      RunPreservesInv(Step(s, es[0]), es[1..]);
    }
  }

  /** Every state the screen can reach from its first appearance. */
  lemma ReachableStatesAreValid(es: seq<RaceEvent>)
    ensures Inv(Run(Initial(), es))
  {
    RunPreservesInv(Initial(), es);
  }

  /** A winner has wobbled fifty times: the race takes fifty fresh presses. */
  lemma WinnerPressedFiftyTimes(s: RaceState)
    requires Inv(s) && s.winner.Some?
    ensures LaneOf(s, s.winner.value).wobble == WinningPosition / MoveAmount
    ensures LaneOf(s, Other(s.winner.value)).wobble < WinningPosition / MoveAmount
  {
  }

  lemma {:induction false} RunAppend(s: RaceState, a: seq<RaceEvent>, b: seq<RaceEvent>)
    ensures Run(s, a + b) == Run(Run(s, a), b)
    decreases |a|
  {
    if |a| > 0 {
      assert (a + b)[0] == a[0];
      assert (a + b)[1..] == a[1..] + b;
      RunAppend(Step(s, a[0]), a[1..], b);
    } else {
      assert a + b == b;
    }
  }

  /* ---------- Countdown ---------- */

  function Ticks(n: nat): (es: seq<RaceEvent>)
    ensures |es| == n && forall i :: 0 <= i < n ==> es[i] == Tick
  {
    seq(n, _ => Tick)
  }

  /** Ticks in the ready phase only count down: the race starts on exactly
      the tick that uses up the countdown. */
  lemma {:induction false} TicksStartRace(s: RaceState, n: nat)
    requires Inv(s) && s.phase == Ready
    ensures var r := Run(s, Ticks(n));
            && (r.phase == Racing <==> n >= s.countdown)
            && (r.phase == Ready <==> n < s.countdown)
            && r.countdown == (if n >= s.countdown then 0 else s.countdown - n)
            && r.lane1 == IdleLane && r.lane2 == IdleLane && r.winner.None?
    decreases n
  {
    if n > 0 {
      var t := OnTick(s);
      assert Ticks(n)[1..] == Ticks(n - 1);
      if s.countdown <= 1 {
        assert t.phase == Racing;
        RacingIgnoresTicks(t, n - 1);
      } else {
        TicksStartRace(t, n - 1);
      }
    }
  }

  lemma {:induction false} RacingIgnoresTicks(s: RaceState, n: nat)
    requires s.phase != Ready
    ensures Run(s, Ticks(n)) == s
    decreases n
  {
    if n > 0 {
      assert Ticks(n)[1..] == Ticks(n - 1);
      RacingIgnoresTicks(s, n - 1);
    }
  }

  /** From the first appearance the race starts on the third tick. */
  lemma ThreeTicksToRace()
    ensures Run(Initial(), Ticks(2)).phase == Ready
    ensures Run(Initial(), Ticks(3)) == RaceState(Racing, IdleLane, IdleLane, None, 0)
  {
    TicksStartRace(Initial(), 2);
    TicksStartRace(Initial(), 3);
  }

  /* ---------- Key presses ---------- */

  /** Holding a key down: the repeats the keyboard sends change nothing. */
  lemma RepeatedKeyDownIdempotent(s: RaceState, key: string)
    ensures OnKeyDown(OnKeyDown(s, key), key) == OnKeyDown(s, key)
  {
    if Accepting(s) && PlayerOfKey(key).Some? {
      var p := PlayerOfKey(key).value;
      var r := OnKeyDown(s, key);
      assert LaneOf(r, p).held;
    }
  }

  /** Releasing a runner's key re-arms it: the next press moves the runner
      again. */
  lemma KeyUpRearms(s: RaceState, p: Player)
    requires Inv(s) && Accepting(s)
    ensures var key := if p == One then "1" else "2";
            var r := OnKeyDown(OnKeyUp(s, key), key);
            && LaneOf(r, p).position == LaneOf(s, p).position + MoveAmount
            && LaneOf(r, p).wobble == LaneOf(s, p).wobble + 1
            && LaneOf(r, Other(p)) == LaneOf(s, Other(p))
  {
  }

  /** One press and release of a runner's key. */
  function Stride(key: string): seq<RaceEvent>
  {
    [KeyDown(key), KeyUp(key)]
  }

  function Strides(key: string, n: nat): (es: seq<RaceEvent>)
    ensures |es| == 2 * n
  {
    if n == 0 then [] else Stride(key) + Strides(key, n - 1)
  }

  lemma RunStride(s: RaceState, key: string)
    ensures Run(s, Stride(key)) == OnKeyUp(OnKeyDown(s, key), key)
  {
    var es := Stride(key);
    var d := OnKeyDown(s, key);
    assert es[0] == KeyDown(key) && es[1..] == [KeyUp(key)];
    assert Run(s, es) == Run(d, [KeyUp(key)]);
    assert [KeyUp(key)][1..] == [];
    assert Run(d, [KeyUp(key)]) == Run(OnKeyUp(d, key), []);
  }

  /** A stride that does not reach the line moves the runner two steps and
      leaves its key released. */
  lemma StrideAdvances(s: RaceState, p: Player)
    requires Inv(s) && Accepting(s) && !LaneOf(s, p).held
    requires LaneOf(s, p).position + MoveAmount < WinningPosition
    ensures var r := Run(s, Stride(if p == One then "1" else "2"));
            && Inv(r) && Accepting(r) && !LaneOf(r, p).held
            && LaneOf(r, p).position == LaneOf(s, p).position + MoveAmount
            && LaneOf(r, p).wobble == LaneOf(s, p).wobble + 1
            && LaneOf(r, Other(p)) == LaneOf(s, Other(p))
  {
    var key := if p == One then "1" else "2";
    var d := OnKeyDown(s, key);
    RunStride(s, key);
    PressPreservesInv(s, p);
  }

  lemma {:induction false} StridesAdvance(s: RaceState, p: Player, n: nat)
    requires Inv(s) && Accepting(s) && !LaneOf(s, p).held
    requires LaneOf(s, p).position + MoveAmount * n < WinningPosition
    ensures var r := Run(s, Strides(if p == One then "1" else "2", n));
            && Inv(r) && Accepting(r) && !LaneOf(r, p).held
            && LaneOf(r, p).position == LaneOf(s, p).position + MoveAmount * n
            && LaneOf(r, Other(p)) == LaneOf(s, Other(p))
    decreases n
  {
    if n > 0 {
      var key := if p == One then "1" else "2";
      StrideAdvances(s, p);
      var m := Run(s, Stride(key));
      RunAppend(s, Stride(key), Strides(key, n - 1));
      StridesAdvance(m, p, n - 1);
    }
  }

  /** A runner n strides short of the line wins with the n-th stride,
      and the other runner stays where it was. */
  lemma StridesFinish(s: RaceState, p: Player, n: nat)
    requires Inv(s) && Accepting(s) && !LaneOf(s, p).held
    requires n >= 1 && LaneOf(s, p).position + MoveAmount * n == WinningPosition
    ensures var r := Run(s, Strides(if p == One then "1" else "2", n));
            && r.phase == Finish && r.winner == Some(p)
            && LaneOf(r, p).position == WinningPosition
            && LaneOf(r, Other(p)) == LaneOf(s, Other(p))
  {
    var key := if p == One then "1" else "2";
    StridesAdvance(s, p, n - 1);
    var m := Run(s, Strides(key, n - 1));
    StridesSplit(key, n - 1);
    RunAppend(s, Strides(key, n - 1), Stride(key));
    var d := OnKeyDown(m, key);
    RunStride(m, key);
  }

  /** Three ticks and fifty strides on "1" win the race for player 1,
      with player 2 still at the start. */
  lemma FiftyStridesWin(n: nat)
    requires n == WinningPosition / MoveAmount
    ensures var r := Run(Initial(), Ticks(3) + Strides("1", n));
            r.phase == Finish && r.winner == Some(One) && r.lane2 == IdleLane
  {
    ThreeTicksToRace();
    RunAppend(Initial(), Ticks(3), Strides("1", n));
    StridesFinish(Run(Initial(), Ticks(3)), One, n);
  }

  lemma {:induction false} StridesSplit(key: string, n: nat)
    ensures Strides(key, n + 1) == Strides(key, n) + Stride(key)
    decreases n
  {
    if n > 0 {
      StridesSplit(key, n - 1);
    }
  }

  /** Neck and neck at 98: the first fresh press wins, and the other
      runner's press that follows is ignored. */
  lemma FirstToTheLineWins(l1: Lane, l2: Lane)
    requires l1 == Lane(98, 49, false, false) && l2 == Lane(98, 49, false, false)
    ensures var r := Run(RaceState(Racing, l1, l2, None, 0), [KeyDown("1"), KeyDown("2")]);
            && r.winner == Some(One) && r.phase == Finish
            && r.lane1.position == WinningPosition && r.lane2.position == 98
  {
  }

  /* ---------- Progress between resets ---------- */

  predicate NoReset(es: seq<RaceEvent>)
  {
    forall i :: 0 <= i < |es| ==> !es[i].PlayAgain?
  }

  /** Until "play again", runners never move back and a winner stays the
      winner. */
  lemma {:induction false} RunMonotone(s: RaceState, es: seq<RaceEvent>)
    requires Inv(s) && NoReset(es)
    ensures var r := Run(s, es);
            && r.lane1.position >= s.lane1.position
            && r.lane2.position >= s.lane2.position
            && (s.phase == Finish ==> r == s)
    decreases |es|
  {
    if |es| > 0 {
      assert !es[0].PlayAgain?;
      StepPreservesInv(s, es[0]);
      RunMonotone(Step(s, es[0]), es[1..]);
      if s.phase == Finish {
        assert Step(s, es[0]) == s;
      }
    }
  }
}

=== FILE: seqs.dfy ===
/** Searching a sequence front to back, as `Array.prototype.find` and a
    `for … of` loop with an early `return` do. */
module Seqs {

  /** Index of the first element satisfying `p`, or -1 when there is none. */
  function FirstIndex<T>(s: seq<T>, p: T -> bool): (i: int)
    ensures -1 <= i < |s|
    ensures 0 <= i ==> p(s[i]) && forall j :: 0 <= j < i ==> !p(s[j])
    ensures i == -1 <==> forall j :: 0 <= j < |s| ==> !p(s[j])
  {
    if |s| == 0 then -1
    else if p(s[0]) then 0
    else
      var i := FirstIndex(s[1..], p);
      if i == -1 then -1 else i + 1
  }
}

=== FILE: text.dfy ===
/** The JavaScript string operations the controller code relies on:
    `toLowerCase`/`toUpperCase` (ASCII letters only), `trim` (the
    ECMAScript whitespace and line-terminator set) and `split(sep).pop()`. */
module Text {

  predicate IsUpperAscii(c: char) { 'A' <= c <= 'Z' }

  predicate IsLowerAscii(c: char) { 'a' <= c <= 'z' }

  function LowerChar(c: char): (r: char)
    ensures !IsUpperAscii(r)
  {
    if IsUpperAscii(c) then (c as int + 32) as char else c
  }

  function UpperChar(c: char): (r: char)
    ensures !IsLowerAscii(r)
  {
    if IsLowerAscii(c) then (c as int - 32) as char else c
  }

  /** `s.toLowerCase()`: every character mapped on its own, nothing added or dropped. */
  function ToLower(s: string): (r: string)
    ensures |r| == |s|
    ensures forall i :: 0 <= i < |s| ==> r[i] == LowerChar(s[i])
    ensures forall i :: 0 <= i < |r| ==> !IsUpperAscii(r[i])
  {
    seq(|s|, i requires 0 <= i < |s| => LowerChar(s[i]))
  }

  /** `s.toUpperCase()`. */
  function ToUpper(s: string): (r: string)
    ensures |r| == |s|
    ensures forall i :: 0 <= i < |s| ==> r[i] == UpperChar(s[i])
    ensures forall i :: 0 <= i < |r| ==> !IsLowerAscii(r[i])
  {
    seq(|s|, i requires 0 <= i < |s| => UpperChar(s[i]))
  }

  /** Text without capitals is its own lower-case form. */
  lemma LowerOfLowerCase(s: string)
    requires forall i :: 0 <= i < |s| ==> !IsUpperAscii(s[i])
    ensures ToLower(s) == s
  {
  }

  /** Upper-casing changes letters only: a character that is not a letter
      survives at the same place, and no letter becomes a non-letter. */
  lemma UpperKeepsNonLetters(s: string, c: char)
    requires !IsUpperAscii(c) && !IsLowerAscii(c)
    ensures c in s <==> c in ToUpper(s)
  {
    if c in s {
      var i :| 0 <= i < |s| && s[i] == c;
      assert ToUpper(s)[i] == c;
    }
    if c in ToUpper(s) {
      var i :| 0 <= i < |ToUpper(s)| && ToUpper(s)[i] == c;
      assert s[i] == c;
    }
  }

  /** WhiteSpace and LineTerminator code points of ECMAScript, the set that
      `String.prototype.trim` and `parseInt` skip. */
  predicate IsJsWhitespace(c: char)
  {
    || c == '\t' || c == '\n' || c == '\U{B}' || c == '\U{C}' || c == '\r'
    || c == ' ' || c == '\U{A0}' || c == '\U{1680}'
    || ('\U{2000}' <= c <= '\U{200A}')
    || c == '\U{2028}' || c == '\U{2029}' || c == '\U{202F}' || c == '\U{205F}'
    || c == '\U{3000}' || c == '\U{FEFF}'
  }

  predicate AllWhitespace(s: string)
  {
    forall i :: 0 <= i < |s| ==> IsJsWhitespace(s[i])
  }

  /** Drops the leading whitespace: the result is the suffix of `s` that
      starts at its first non-whitespace character. */
  function TrimStart(s: string): (r: string)
    ensures |r| <= |s| && r == s[|s| - |r|..]
    ensures AllWhitespace(s[..|s| - |r|])
    ensures r == [] || !IsJsWhitespace(r[0])
  {
    if |s| > 0 && IsJsWhitespace(s[0]) then
      var r := TrimStart(s[1..]);
      WhitespaceThenSuffix(s, r);
      r
    else s
  }

  /** A whitespace character in front of a whitespace run followed by `r`
      makes a longer whitespace run followed by `r`. */
  lemma WhitespaceThenSuffix(s: string, r: string)
    requires |s| > 0 && IsJsWhitespace(s[0])
    requires |r| <= |s| - 1 && r == s[1..][|s| - 1 - |r|..]
    requires AllWhitespace(s[1..][..|s| - 1 - |r|])
    ensures r == s[|s| - |r|..]
    ensures AllWhitespace(s[..|s| - |r|])
  {
    var k := |s| - |r|;
    assert s[..k] == [s[0]] + s[1..][..k - 1];
  }

  /** Drops the trailing whitespace: the result is the prefix of `s` that
      ends at its last non-whitespace character. */
  function TrimEnd(s: string): (r: string)
    ensures |r| <= |s| && r == s[..|r|]
    ensures AllWhitespace(s[|r|..])
    ensures r == [] || !IsJsWhitespace(r[|r| - 1])
  {
    if |s| > 0 && IsJsWhitespace(s[|s| - 1]) then
      var r := TrimEnd(s[..|s| - 1]);
      assert s[|r|..] == s[..|s| - 1][|r|..] + [s[|s| - 1]];
      r
    else s
  }

  /** `r` is `s` with only whitespace removed from both ends, starting at `i`. */
  predicate TrimmedAt(s: string, r: string, i: int)
  {
    && 0 <= i <= |s| - |r|
    && r == s[i..i + |r|]
    && AllWhitespace(s[..i])
    && AllWhitespace(s[i + |r|..])
  }

  /** `s.trim()`: a contiguous slice of `s` with whitespace on neither end,
      and only whitespace cut off on either side. */
  function Trim(s: string): (r: string)
    ensures exists i :: TrimmedAt(s, r, i)
    ensures r == [] || (!IsJsWhitespace(r[0]) && !IsJsWhitespace(r[|r| - 1]))
  {
    TrimBothEnds(s);
    TrimEnd(TrimStart(s))
  }

  lemma TrimBothEnds(s: string)
    ensures TrimmedAt(s, TrimEnd(TrimStart(s)), |s| - |TrimStart(s)|)
  {
    TrimmedPieces(s, TrimStart(s), TrimEnd(TrimStart(s)));
  }

  /** A whitespace-only cut at the front followed by one at the back leaves
      a trimmed slice. */
  lemma TrimmedPieces(s: string, t: string, r: string)
    requires |t| <= |s| && t == s[|s| - |t|..] && AllWhitespace(s[..|s| - |t|])
    requires |r| <= |t| && r == t[..|r|] && AllWhitespace(t[|r|..])
    ensures TrimmedAt(s, r, |s| - |t|)
  {
    var i := |s| - |t|;
    assert s[i..i + |r|] == t[..|r|];
    assert s[i + |r|..] == t[|r|..];
  }

  /** Nothing is left of a string made only of whitespace. */
  lemma TrimStartBlank(pad: string)
    requires AllWhitespace(pad)
    ensures TrimStart(pad) == []
  {
  }

  /** `TrimStart` removes exactly a whitespace prefix in front of text that
      starts with a non-whitespace character. */
  lemma {:induction false} TrimStartSkips(pad: string, rest: string)
    requires AllWhitespace(pad)
    requires |rest| > 0 && !IsJsWhitespace(rest[0])
    ensures TrimStart(pad + rest) == rest
  {
    if |pad| > 0 {
      assert (pad + rest)[1..] == pad[1..] + rest;
      TrimStartSkips(pad[1..], rest);
    }
  }

  /** `TrimEnd` removes exactly a whitespace suffix behind text that ends
      with a non-whitespace character. */
  lemma {:induction false} TrimEndSkips(rest: string, pad: string)
    requires AllWhitespace(pad)
    requires |rest| > 0 && !IsJsWhitespace(rest[|rest| - 1])
    ensures TrimEnd(rest + pad) == rest
  {
    if |pad| > 0 {
      assert (rest + pad)[..|rest + pad| - 1] == rest + pad[..|pad| - 1];
      TrimEndSkips(rest, pad[..|pad| - 1]);
    } else {
      assert rest + pad == rest;
    }
  }

  /** Trimming text padded with whitespace on both sides gives back the text. */
  lemma TrimPadded(left: string, core: string, right: string)
    requires AllWhitespace(left) && AllWhitespace(right)
    requires |core| > 0 && !IsJsWhitespace(core[0]) && !IsJsWhitespace(core[|core| - 1])
    ensures Trim(left + core + right) == core
  {
    assert left + core + right == left + (core + right);
    TrimStartSkips(left, core + right);
    TrimEndSkips(core, right);
  }

  /** `s.split(sep).pop()`: the text after the last `sep`, or all of `s`
      when it holds no `sep`. */
  function LastSegment(s: string, sep: char): (r: string)
    ensures sep !in r
    ensures |r| <= |s| && r == s[|s| - |r|..]
    ensures |r| < |s| ==> s[|s| - |r| - 1] == sep
  {
    if |s| == 0 then ""
    else if s[|s| - 1] == sep then ""
    else LastSegment(s[..|s| - 1], sep) + [s[|s| - 1]]
  }

  /** Whatever precedes the last separator, the segment after it is what
      `split(sep).pop()` returns. */
  lemma LastSegmentAfterSeparator(prefix: string, sep: char, segment: string)
    requires sep !in segment
    ensures LastSegment(prefix + [sep] + segment, sep) == segment
  {
    var s := prefix + [sep] + segment;
    OnlySegmentAfterSeparator(prefix, sep, segment, LastSegment(s, sep));
  }

  /** The only separator-free suffix of `prefix + [sep] + segment` that is the
      whole text or follows a separator is `segment`. */
  lemma OnlySegmentAfterSeparator(prefix: string, sep: char, segment: string, r: string)
    requires sep !in segment && sep !in r
    requires |r| <= |prefix| + 1 + |segment|
    requires r == (prefix + [sep] + segment)[|prefix| + 1 + |segment| - |r|..]
    requires |r| < |prefix| + 1 + |segment| ==> (prefix + [sep] + segment)[|prefix| + |segment| - |r|] == sep
    ensures r == segment
  {
    // a longer r would reach back over the separator; a shorter one would
    // start after a character of the segment instead of after a separator
    var s := prefix + [sep] + segment;
    assert s[|prefix|] == sep;
    assert forall k :: 0 <= k < |r| ==> r[k] == s[|s| - |r| + k];
    assert forall k :: 0 <= k < |segment| ==> s[|prefix| + 1 + k] == segment[k];
    assert |r| == |segment|;
    assert s[|s| - |segment|..] == segment;
  }

  predicate StartsWith(s: string, prefix: string)
  {
    |prefix| <= |s| && s[..|prefix|] == prefix
  }
}

=== FILE: wrappers.dfy ===
/** The optional-value datatype used wherever the source has a field that may
    be `undefined` or a value that may be `null`. */
module Wrappers {

  datatype Option<+T> = None | Some(value: T) {

    /** Returns the wrapped value, or `default` when there is none (the
        source's `??` operator). */
    function GetOr(default: T): T
    {
      match this
      case Some(v) => v
      case None => default
    }
  }
}
